=== FILE: README.md ===
# School day page: weather proxy and meal helpers, in Dafny

This project models two small pieces of a school information page and proves
properties of them.

- **The weather proxy** (`cloudflare-worker/weather-proxy.js`). It is an edge
  worker with a single endpoint, `/weather`. The worker:
  - checks the path, then its `OPENWEATHER_API_KEY` secret, then the `lat`
    and `lon` query parameters, in that order;
  - fills in `units=metric` and `lang=kr` when those are missing or empty;
  - forwards the query to the OpenWeatherMap forecast API with the secret
    attached as `appid`;
  - passes the upstream status and body back unchanged.

  The handler catches nothing. A failed upstream call, or an upstream
  status that a `Response` with a body cannot take, ends in the platform's
  own error response.

  The forwarded response carries three headers. The first is
  `Content-Type`. The second is `Access-Control-Allow-Origin`, the response
  header of the CORS protocol (WHATWG Fetch Standard, section 3.2.3); its
  value comes from `getAllowedOrigin`. The third is `Vary: Origin`
  (section 12.5.5 of RFC 9110).
- **The meal page helpers** (`script.js`). These are:
  - the `YYYYMMDD` date key;
  - the school-meal service URL, with its optional `&KEY=` suffix;
  - the `cleanMenu` rewrite, which deletes allergen notes in parentheses
    and then rewrites `<br/>` to `<br>`;
  - the pass over the meal rows that decides what the lunch and dinner
    panels finally show, with its two fallback messages.

Modules:

- `Wrappers`: `Option`.
- `JsText`: JavaScript truthiness, `||` defaults, `trim`, `split` and `join`.
- `Decimal`: `String(n)` and `padStart`, with `Value` as the reading back.
- `Cors`: `getAllowedOrigin`.
- `WeatherProxy`: `URLSearchParams` `get` and `set`, and the `fetch`
  handler. `Handle` is the decision, `Fetch` is the response.
- `MealRequest`: `ymd` and the request URL.
- `MenuText`: `cleanMenu`.
- `MealPage`: the row fold and what `fetchMeals` leaves on the page.
  - `FetchMeals` is the reference definition.
  - `RenderMeals` is the in-place loop proved equal to it.

Three behaviours of the code worth knowing:

- `getAllowedOrigin` answers `*` for an empty `Origin` header as well as
  for a missing one.
- An allow-list made only of commas and whitespace is truthy. It parses to
  no entry, so it denies every origin (`BlankAllowListDenies`).
- `cleanMenu` is applied to every row before the meal code is looked at. A
  breakfast row whose dish is not a string therefore throws, and both menus
  show the failure text (`UnreadableRowFails`).

## Model

| member | source | states |
|---|---|---|
| JsText.OrElse | cloudflare-worker/weather-proxy.js:16-17 | `v \|\| fallback` is the value when it is a non-empty string and the fallback otherwise |
| JsText.Trim | cloudflare-worker/weather-proxy.js:53 | the trimmed text is no longer than the input and neither starts nor ends with whitespace |
| JsText.TrimInfix | cloudflare-worker/weather-proxy.js:53 | the trimmed text is a contiguous infix of the input with only whitespace before and after it |
| JsText.TrimSurrounded | cloudflare-worker/weather-proxy.js:53 | any whitespace around a text without whitespace ends is exactly what `trim` removes |
| JsText.TrimIdempotent | cloudflare-worker/weather-proxy.js:53 | trimming twice equals trimming once |
| JsText.Split | cloudflare-worker/weather-proxy.js:53 | `split(",")` yields at least one piece and no piece contains the separator |
| JsText.JoinSplit | cloudflare-worker/weather-proxy.js:53 | joining the pieces of a split with the separator gives back the original string |
| JsText.SplitJoin | cloudflare-worker/weather-proxy.js:53 | splitting a join of separator-free pieces gives back the pieces |
| JsText.SplitAppend | cloudflare-worker/weather-proxy.js:53 | splitting `a,b` is splitting `a` followed by splitting `b` |
| Cors.TrimEach | cloudflare-worker/weather-proxy.js:53 | `.map((x) => x.trim())` keeps the number of pieces and trims each piece in place |
| Cors.DropEmpty | cloudflare-worker/weather-proxy.js:53 | `.filter(Boolean)` keeps exactly the non-empty strings and never lengthens the list |
| Cors.Entries | cloudflare-worker/weather-proxy.js:53 | parsed allow-list entries are non-empty and contain no comma |
| Cors.EntriesComplete | cloudflare-worker/weather-proxy.js:53 | every piece that is non-empty after trimming is a parsed entry |
| Cors.EntriesTrimmed | cloudflare-worker/weather-proxy.js:53 | every parsed entry is already trimmed |
| Cors.AllowedOrigin | cloudflare-worker/weather-proxy.js:49-57 | the answer is always `*`, `null` or the request origin; it is `*` when the origin or the list is missing or empty; otherwise the parsed entries decide |
| Cors.Decide | cloudflare-worker/weather-proxy.js:54-56 | a wildcard entry admits every origin; otherwise an exactly listed origin (case-sensitive) is echoed and any other gets `null` |
| Cors.DecideSameEntries | cloudflare-worker/weather-proxy.js:54-56 | two entry lists with the same members give the same answer, whatever their order or repetitions |
| Cors.EntriesEmptyIff | cloudflare-worker/weather-proxy.js:53 | the allow-list parses to no entry exactly when it holds only commas and whitespace |
| Cors.BlankAllowListDenies | cloudflare-worker/weather-proxy.js:51-56 | a non-empty list of only commas and whitespace denies every origin, while an empty list admits every origin |
| Cors.EntriesAppend | cloudflare-worker/weather-proxy.js:53 | the entries of `a,b` are the entries of `a` followed by those of `b` |
| Cors.AllowListOrderIrrelevant | cloudflare-worker/weather-proxy.js:53-55 | swapping the two halves of an allow-list never changes the answer |
| Cors.AppendedOriginAdmitted | cloudflare-worker/weather-proxy.js:53-55 | an origin appended to any list is echoed, unless a wildcard entry already admits everyone |
| Cors.TwoEntryList | cloudflare-worker/weather-proxy.js:53-56 | with two non-wildcard origins listed, each of them is echoed and every other origin gets `null` |
| Cors.PairDecides | cloudflare-worker/weather-proxy.js:54-56 | when a list parses to two non-wildcard entries, exactly those two origins are echoed and every other origin gets `null` |
| WeatherProxy.Get | cloudflare-worker/weather-proxy.js:14-17 | `searchParams.get` is absent exactly when no pair has the name; otherwise it is the value of a pair with that name |
| WeatherProxy.GetFirst | cloudflare-worker/weather-proxy.js:14-17 | `get` returns the value of the first pair with the name |
| WeatherProxy.RemoveAll | cloudflare-worker/weather-proxy.js:24-28 | after removal no pair carries the name |
| WeatherProxy.RemoveAllOthers | cloudflare-worker/weather-proxy.js:24-28 | removing one name leaves the value of every other name unchanged |
| WeatherProxy.SetParam | cloudflare-worker/weather-proxy.js:24-28 | after `set`, `get` of the name yields the new value; setting a name not yet present appends one pair |
| WeatherProxy.SetParamOthers | cloudflare-worker/weather-proxy.js:24-28 | `set` leaves the value of every other name unchanged |
| WeatherProxy.SetFresh | cloudflare-worker/weather-proxy.js:24-28 | setting a name that no pair carries appends exactly that pair |
| WeatherProxy.FreshNamesTail | cloudflare-worker/weather-proxy.js:24-28 | once the first of several fresh, distinct names has been set, the rest are still fresh |
| WeatherProxy.SetAllFresh | cloudflare-worker/weather-proxy.js:24-28 | setting pairwise distinct fresh names one after another appends the pairs in order |
| WeatherProxy.UpstreamQuery | cloudflare-worker/weather-proxy.js:23-28 | setting the five parameters one after the other on the bare URL yields exactly `lat`, `lon`, `units`, `lang`, `appid`, in that order, with the given values |
| WeatherProxy.Handle | cloudflare-worker/weather-proxy.js:5-45 | not found exactly off `/weather`; 500 exactly when the key is missing or empty, before `lat` is looked at; 400 exactly when the key is present and `lat` or `lon` is missing or empty; a forwarded request carries the exact five-pair query with defaults filled in, and passes the upstream status and body through with the three forwarding headers; it throws exactly when, after validation, the upstream call failed or its status is outside 200-599 or one of 204, 205, 304 |
| WeatherProxy.ErrorResponse | cloudflare-worker/weather-proxy.js:59-64 | a `json` error response has the given status, only the JSON content-type header, and a body whose `error` member reads back as the message |
| WeatherProxy.ToResponse | cloudflare-worker/weather-proxy.js:6-45 | not found gives 404 `Not Found` with only the `text/plain;charset=UTF-8` content type the constructor adds for a string body; a rejection gives its status with its message as the JSON `error`; a forwarded answer keeps its status, body and headers; a thrown exception, and only that, becomes the platform's error response |
| WeatherProxy.Fetch | cloudflare-worker/weather-proxy.js:5-64 | the client receives one of: 404 `Not Found` with the plain-text content type; the JSON error body with status 500, or with status 400; the upstream status and body with exactly the three forwarding headers, when the call succeeded and its status can carry a body; otherwise the platform's error response for an uncaught exception |
| WeatherProxy.DefaultsForwarded | cloudflare-worker/weather-proxy.js:14-28 | given only non-empty `lat` and `lon`, the upstream request carries `units=metric`, `lang=kr` and the key as `appid`, and the answer is forwarded whenever the call succeeded with a status that can carry a body |
| WeatherProxy.GivenValuesForwarded | cloudflare-worker/weather-proxy.js:16-28 | non-empty `units` and `lang` are sent upstream verbatim, with no check of their values, in the exact five-pair query; the answer is forwarded whenever the call succeeded with a status that can carry a body |
| WeatherProxy.KeyNotInHeaders | cloudflare-worker/weather-proxy.js:36-45 | no response header value contains the secret key, unless the client's `Origin` contains it or a fixed header value does |
| Decimal.IntToString | script.js:3-6 | `${y}` is a numeral that reads back as the integer, with a minus sign exactly for negative values and no leading zero |
| Decimal.NatToString | script.js:4-5 | `String(n)` is a numeral that reads back as `n`, has no leading zero, and has exactly as many digits as `n` needs |
| Decimal.PadStart | script.js:4-5 | `padStart` yields length `max(width, \|s\|)`, ends with `s`, and holds only fill characters before it |
| Decimal.ZeroPadValue | script.js:4-5 | zero-padding a numeral keeps its value |
| Decimal.NatToStringLength | script.js:4-5 | `String(n)` has exactly `k` digits for the `k`-digit numbers |
| MealRequest.Ymd | script.js:3-6 | for a four-digit year, a month 1-12 and a day 1-31, the date key is eight digits whose slices read back as year, month and day |
| MealRequest.YmdInjective | script.js:3-6 | distinct calendar days give distinct date keys |
| MealRequest.MealUrl | script.js:17-21 | the URL is the fixed base with the date key, extended by `&KEY=<key>` exactly when the key is non-empty and not the placeholder |
| MealRequest.RequestUrl | script.js:16-21 | a page without `CONFIG` requests the bare URL; with `CONFIG`, `&KEY=<API_KEY>` is added exactly when the key is non-empty and not the placeholder |
| MealRequest.MealUrlRoundTrip | script.js:16-21 | reading the URL back recovers the date key and, exactly when it was usable, the key |
| MenuText.StripParens | script.js:36 | deleting the groups never lengthens the text, adds no character, and leaves no `(` followed later by a `)` |
| MenuText.StripParensFixpoint | script.js:36 | text without a `(`…`)` pattern is left alone |
| MenuText.StripParensUnchangedIff | script.js:36 | the deletion changes a text exactly when it holds a `(` followed later by a `)` |
| MenuText.StripParensGroup | script.js:36 | the first group is deleted through its first `)`, and the scan goes on after it |
| MenuText.ReplaceBr | script.js:36 | the line-break rewrite never lengthens the text and adds no character; ReplaceBrFirst and ReplaceBrFixpoint fix its result on every input |
| MenuText.ReplaceBrFirst | script.js:36 | the text before the first `<br/>` is kept, that `<br/>` becomes `<br>`, and the rewrite goes on after it |
| MenuText.ReplaceBrLines | script.js:36 | lines without `<br/>` joined by `<br/>` come out the same lines joined by `<br>` |
| MenuText.ReplaceBrComplete | script.js:36 | after the rewrite no `<br/>` remains |
| MenuText.ReplaceBrFixpoint | script.js:36 | text without `<br/>` is left alone |
| MenuText.ReplaceBrUnchangedIff | script.js:36 | the rewrite changes a text exactly when it holds `<br/>` |
| MenuText.ReplaceBrKeepsParenFree | script.js:36 | the rewrite cannot create a `(`…`)` pattern |
| MenuText.CleanMenu | script.js:36 | the cleaned text is never longer than the dish text and holds neither a `(`…`)` pattern nor `<br/>` |
| MenuText.CleanMenuLineBreak | script.js:36 | a line with no `(` and no `<br/>` before a `<br/>` is kept as it is, that `<br/>` becomes `<br>`, and cleaning goes on with the rest |
| MenuText.CleanMenuIdempotent | script.js:36 | cleaning twice equals cleaning once |
| MenuText.CleanMenuUnchangedIff | script.js:36 | cleaning leaves a text alone exactly when it holds neither pattern |
| MenuText.ParenthesesFirst | script.js:36 | parentheses go first, so a note inside a `<br/>` is deleted and the resulting `<br/>` becomes `<br>` |
| MealPage.ApplyRow | script.js:36-44 | a lunch row sets the lunch panel to its cleaned dish and calories and leaves dinner alone; likewise for dinner; any other row changes nothing |
| MealPage.ApplyRows | script.js:34-45 | the pass over the rows throws exactly when some row's dish is not a string |
| MealPage.LastWithCode | script.js:38-43 | the reference row for a meal is a row with that code after which no row has the code, and there is none exactly when no row has the code |
| MealPage.ApplyRowsAppend | script.js:34-45 | the pass over `xs + ys` is the pass over `xs` followed by the pass over `ys`, unless `xs` threw |
| MealPage.ApplyRowsLastWins | script.js:31-45 | with every dish readable, each panel ends showing the last row with its code, or stays as it was when there is none |
| MealPage.ApplyRowsStops | script.js:34-45 | the pass stops at the first unreadable dish, with the board the earlier rows produced |
| MealPage.FetchMeals | script.js:23-56 | a failed request shows the failure text; an answer without meal information shows the no-meal text; readable rows show the last lunch and dinner rows; an unreadable dish shows the failure text on both menus |
| MealPage.MealsShown | script.js:31-45 | lunch shows the last lunch row cleaned, with its calories, or `정보가 없습니다.` with no calories when there is no lunch row; the same holds for dinner |
| MealPage.LaterRowOverrides | script.js:38-43 | a later lunch row overrides every earlier lunch row and leaves dinner unchanged; a later dinner row overrides every earlier dinner row and leaves lunch unchanged |
| MealPage.OtherMealIgnored | script.js:38-44 | a readable row for neither lunch nor dinner changes nothing, wherever it stands |
| MealPage.UnreadableRowFails | script.js:34-55 | an unreadable dish sets both menus to the failure text, even on a row for neither meal; calories written before it stay |
| MealPage.RenderMeals | script.js:28-56 | the in-place loop over the rows ends with exactly the board `FetchMeals` describes |

## Left out

- The network: `fetch` and `upstream.text()` in the proxy, and
  `fetch`/`response.json()` on the page. The upstream outcome (`Answered`
  with status and body text, or `Failed` when either call rejects) and the
  page's parsed answer (`MealReply`) are inputs.
- The `cf` cache hints (`cacheTtl`, `cacheEverything`) are platform
  behaviour.
- `URL` and `URLSearchParams` parsing, serialisation and percent-encoding:
  - the path is `url.pathname` as the parser yields it, still
    percent-encoded with dot segments resolved, and is compared with
    `/weather` as it is;
  - the query is a list of decoded pairs;
  - the upstream request is a URL without its query, plus the pairs and the
    `Accept` value.
- The error response the platform sends when the handler throws. The
  model records only that it happened (`Uncaught`). The handler throws when
  the upstream call or `upstream.text()` rejects. It also throws when the
  upstream status makes `new Response(body, { status })` fail: outside
  200-599 a RangeError, and for 204, 205 and 304 a TypeError, because the
  body text is never null.
- Headers the platform itself adds to a response. The `Content-Type` that
  the `Response` constructor gives the 404 response is modelled: its string
  body has the type `text/plain;charset=UTF-8` under the body-extraction
  steps of the WHATWG Fetch Standard.
- The 404, 400 and 500 responses carry no CORS headers. This is modelled as
  written, not corrected.
- `WeatherProxy.KeyNotInHeaders` covers headers only. The upstream body is
  passed through verbatim, so nothing in the code keeps the key out of it.
- `JSON.stringify`: the two error messages need no escaping, so the body is
  written out as `{"error":"<message>"}`.
- The DOM:
  - `innerText` and `innerHTML` are modelled as the text each element ends
    up holding;
  - the loading text that `fetchMeals` writes first is overwritten on every
    path, so it is not modelled;
  - `console.error` is not modelled.
- The clock and locale: `new Date()` and `toLocaleDateString` (the visible
  date line). The date key takes year, month and day as integers.
- JSON parsing of the meal answer. A missing `mealServiceDietInfo[1].row`,
  or a non-array `row`, is folded into `Unavailable`. Row codes and calories
  are strings. A `DDISH_NM` that is not a string is `None`.
- `Decimal.NatToString` writes every natural number out in full. JavaScript
  numbers are doubles: `String(n)` switches to exponent form from 1e21 and
  integers above 2^53 are not exact. The model does not follow either. No
  date key is affected, because the page passes only months, days and
  `getFullYear()`, which is at most 275760.
- Strings are sequences of Unicode scalar values, not JavaScript's UTF-16
  code units. Every pattern and whitespace character involved lies in the
  Basic Multilingual Plane, so no result depends on the difference.
- A `CONFIG` that is defined but `null`: reading `CONFIG.API_KEY` then
  throws before the request, outside the `try`. `Config` models only a
  missing `CONFIG` or an object.
- The general regular-expression engine: the two fixed patterns of
  `cleanMenu` are written as recursive string functions.
- `Cors.TwoEntryList`: stated for origins other than `*`; a wildcard entry is
  covered generally by `Cors.AllowedOrigin`.

=== FILE: cors.dfy ===
/** The proxy's choice of the `Access-Control-Allow-Origin` response header
    (the CORS protocol of the WHATWG Fetch Standard, section 3.2.3): a
    comma-separated allow-list from the environment decides whether the
    request's `Origin` is echoed back, answered with the wildcard, or
    denied with the literal `null`. */
module Cors {
  import opened Wrappers
  import opened JsText

  const Wildcard := "*"
  const Denied := "null"

  /** `xs.map((x) => x.trim())` */
  function TrimEach(xs: seq<string>): (ys: seq<string>)
    ensures |ys| == |xs|
    ensures forall i :: 0 <= i < |xs| ==> ys[i] == Trim(xs[i])
    decreases |xs|
  {
    if |xs| == 0 then [] else [Trim(xs[0])] + TrimEach(xs[1..])
  }

  /** `xs.filter(Boolean)` on strings: the empty ones are dropped, the
      others kept in order. */
  function DropEmpty(xs: seq<string>): (ys: seq<string>)
    ensures |ys| <= |xs|
    ensures forall e :: e in ys <==> e in xs && e != ""
    decreases |xs|
  {
    if |xs| == 0 then []
    else if xs[0] == "" then DropEmpty(xs[1..])
    else [xs[0]] + DropEmpty(xs[1..])
  }

  /** The parsed allow-list: split on ",", each piece trimmed, empty
      entries dropped. */
  function Entries(raw: string): (es: seq<string>)
    ensures forall e :: e in es ==> e != "" && ',' !in e
  {
    var pieces := Split(raw, ',');
    var es := DropEmpty(TrimEach(pieces));
    forall e | e in es
      ensures e != "" && ',' !in e
    {
      EntryShape(pieces, e);
    }
    es
  }

  /** Entries carry no surrounding whitespace. */
  lemma EntriesTrimmed(raw: string)
    ensures forall e :: e in Entries(raw) ==> Trim(e) == e
  {
    forall e | e in Entries(raw)
      ensures Trim(e) == e
    {
      EntryShape(Split(raw, ','), e);
    }
  }

  lemma EntryShape(pieces: seq<string>, e: string)
    requires forall i :: 0 <= i < |pieces| ==> ',' !in pieces[i]
    requires e in DropEmpty(TrimEach(pieces))
    ensures e != "" && ',' !in e && Trim(e) == e
  {
    var i :| 0 <= i < |pieces| && TrimEach(pieces)[i] == e;
    TrimIdempotent(pieces[i]);
    TrimChars(pieces[i]);
  }

  /** Every character of a trimmed string comes from the original. */
  lemma TrimChars(s: string)
    ensures forall c :: c in Trim(s) ==> c in s
  {
    var r := Trim(s);
    var i := TrimInfix(s);
    forall c | c in r
      ensures c in s
    {
      var k :| 0 <= k < |r| && r[k] == c;
      assert s[i + k] == c;
    }
  }

  /** Each non-empty trimmed piece of the split allow-list is an entry. */
  lemma EntriesComplete(raw: string, i: nat)
    requires i < |Split(raw, ',')|
    requires Trim(Split(raw, ',')[i]) != ""
    ensures Trim(Split(raw, ',')[i]) in Entries(raw)
  {
    var pieces := Split(raw, ',');
    assert TrimEach(pieces)[i] in TrimEach(pieces);
  }

  /** `getAllowedOrigin(origin, allowListRaw)`. */
  function AllowedOrigin(origin: Option<string>, allowList: Option<string>): (r: string)
    ensures r == Wildcard || r == Denied || (origin.Some? && r == origin.value)
    ensures !Truthy(origin) || !Truthy(allowList) ==> r == Wildcard
    ensures Truthy(origin) && Truthy(allowList) ==> r == Decide(origin.value, Entries(allowList.value))
  {
    if !Truthy(origin) then Wildcard
    else if !Truthy(allowList) then Wildcard
    else Decide(origin.value, Entries(allowList.value))
  }

  /** The lookup once the allow-list is parsed: a wildcard entry admits
      every origin, otherwise a listed origin is echoed and any other is
      denied. */
  function Decide(origin: string, es: seq<string>): (r: string)
    ensures Wildcard in es ==> r == Wildcard
    ensures Wildcard !in es && origin in es ==> r == origin
    ensures Wildcard !in es && origin !in es ==> r == Denied
  {
    if Wildcard in es then Wildcard
    else if origin in es then origin
    else Denied
  }

  /** A present origin and a non-empty allow-list are decided by the
      parsed entries alone. */
  lemma DecidedByEntries(origin: string, raw: string)
    requires origin != "" && raw != ""
    ensures AllowedOrigin(Some(origin), Some(raw)) == Decide(origin, Entries(raw))
  {
  }

  /** Only which entries are listed matters: allow-lists with the same
      entries, in any order and with any repetition, decide alike. */
  lemma DecideSameEntries(origin: string, xs: seq<string>, ys: seq<string>)
    requires forall e :: e in xs <==> e in ys
    ensures Decide(origin, xs) == Decide(origin, ys)
  {
  }

  /** True of an allow-list made only of separators and whitespace. */
  predicate Blank(raw: string) {
    forall i :: 0 <= i < |raw| ==> raw[i] == ',' || IsWhitespace(raw[i])
  }

  lemma TrimEmptyIff(s: string)
    ensures Trim(s) == "" <==> AllWhitespace(s)
  {
    if AllWhitespace(s) {
      assert s + [] + [] == s;
      TrimSurrounded(s, [], []);
    }
    if Trim(s) == "" {
      var i := TrimInfix(s);
      assert s == s[..i] + s[i..];
    }
  }

  predicate AllPiecesWhitespace(pieces: seq<string>) {
    forall i :: 0 <= i < |pieces| ==> AllWhitespace(pieces[i])
  }

  lemma {:induction false} PiecesWhitespaceIff(raw: string)
    ensures AllPiecesWhitespace(Split(raw, ',')) <==> Blank(raw)
    decreases |raw|
  {
    if |raw| > 0 {
      PiecesWhitespaceIff(raw[1..]);
      var rest := Split(raw[1..], ',');
      var ok := raw[0] == ',' || IsWhitespace(raw[0]);
      BlankCons(raw);
      if raw[0] == ',' {
        var pieces := [""] + rest;
        assert Split(raw, ',') == pieces;
        PiecesCons("", rest);
      } else {
        var head := [raw[0]] + rest[0];
        var pieces := [head] + rest[1..];
        assert Split(raw, ',') == pieces;
        assert rest == [rest[0]] + rest[1..];
        PiecesCons(head, rest[1..]);
        PiecesCons(rest[0], rest[1..]);
        AllWhitespaceAppend([raw[0]], rest[0]);
        assert AllWhitespace([raw[0]]) <==> IsWhitespace(raw[0]) by {
          assert [raw[0]][0] == raw[0];
        }
      }
    }
  }

  lemma AllWhitespaceAppend(a: string, b: string)
    ensures AllWhitespace(a + b) <==> AllWhitespace(a) && AllWhitespace(b)
  {
    var s := a + b;
    if AllWhitespace(s) {
      forall k | 0 <= k < |a| ensures IsWhitespace(a[k]) { assert s[k] == a[k]; }
      forall k | 0 <= k < |b| ensures IsWhitespace(b[k]) { assert s[|a| + k] == b[k]; }
    }
    if AllWhitespace(a) && AllWhitespace(b) {
      forall k | 0 <= k < |s| ensures IsWhitespace(s[k]) {
        if k < |a| { assert s[k] == a[k]; } else { assert s[k] == b[k - |a|]; }
      }
    }
  }

  lemma BlankCons(raw: string)
    requires |raw| > 0
    ensures Blank(raw) <==> (raw[0] == ',' || IsWhitespace(raw[0])) && Blank(raw[1..])
  {
    if (raw[0] == ',' || IsWhitespace(raw[0])) && Blank(raw[1..]) {
      forall i | 0 <= i < |raw|
        ensures raw[i] == ',' || IsWhitespace(raw[i])
      {
        if i > 0 { assert raw[i] == raw[1..][i - 1]; }
      }
    }
  }

  lemma PiecesCons(head: string, rest: seq<string>)
    ensures AllPiecesWhitespace([head] + rest) <==> AllWhitespace(head) && AllPiecesWhitespace(rest)
  {
    var pieces := [head] + rest;
    if AllPiecesWhitespace(pieces) {
      assert AllWhitespace(pieces[0]);
      forall i | 0 <= i < |rest|
        ensures AllWhitespace(rest[i])
      {
        assert pieces[i + 1] == rest[i];
      }
    }
    if AllWhitespace(head) && AllPiecesWhitespace(rest) {
      forall i | 0 <= i < |pieces|
        ensures AllWhitespace(pieces[i])
      {
        if i > 0 { assert pieces[i] == rest[i - 1]; }
      }
    }
  }

  /** The allow-list parses to no entry at all exactly when it holds
      nothing but commas and whitespace. */
  lemma EntriesEmptyIff(raw: string)
    ensures Entries(raw) == [] <==> Blank(raw)
  {
    var pieces := Split(raw, ',');
    var trimmed := TrimEach(pieces);
    PiecesWhitespaceIff(raw);
    if Entries(raw) == [] {
      forall i | 0 <= i < |pieces|
        ensures AllWhitespace(pieces[i])
      {
        TrimEmptyIff(pieces[i]);
        if Trim(pieces[i]) != "" {
          EntriesComplete(raw, i);
        }
      }
    }
    if Blank(raw) && Entries(raw) != [] {
      var e := Entries(raw)[0];
      assert e in DropEmpty(trimmed);
      var i :| 0 <= i < |trimmed| && trimmed[i] == e;
      TrimEmptyIff(pieces[i]);
      assert false;
    }
  }

  /** A non-empty allow-list of only commas and whitespace is truthy, so it
      is parsed, yields no entry, and denies every origin, whereas an empty
      one admits every origin. */
  lemma BlankAllowListDenies(origin: string, raw: string)
    requires origin != "" && raw != "" && Blank(raw)
    ensures AllowedOrigin(Some(origin), Some(raw)) == Denied
    ensures AllowedOrigin(Some(origin), Some("")) == Wildcard
  {
    EntriesEmptyIff(raw);
  }

  lemma {:induction false} TrimEachAppend(xs: seq<string>, ys: seq<string>)
    ensures TrimEach(xs + ys) == TrimEach(xs) + TrimEach(ys)
    decreases |xs|
  {
    if |xs| > 0 {
      assert (xs + ys)[1..] == xs[1..] + ys;
      TrimEachAppend(xs[1..], ys);
    } else {
      assert xs + ys == ys;
    }
  }

  lemma {:induction false} DropEmptyAppend(xs: seq<string>, ys: seq<string>)
    ensures DropEmpty(xs + ys) == DropEmpty(xs) + DropEmpty(ys)
    decreases |xs|
  {
    if |xs| > 0 {
      assert (xs + ys)[1..] == xs[1..] + ys;
      DropEmptyAppend(xs[1..], ys);
    } else {
      assert xs + ys == ys;
    }
  }

  /** The entries of two allow-lists joined by a comma are the entries of
      the first followed by those of the second. */
  lemma EntriesAppend(a: string, b: string)
    ensures Entries(a + "," + b) == Entries(a) + Entries(b)
  {
    SplitAppend(a, b, ',');
    TrimEachAppend(Split(a, ','), Split(b, ','));
    DropEmptyAppend(TrimEach(Split(a, ',')), TrimEach(Split(b, ',')));
  }

  /** Only which entries are listed matters, not their order. */
  lemma AllowListOrderIrrelevant(origin: Option<string>, a: string, b: string)
    ensures AllowedOrigin(origin, Some(a + "," + b)) == AllowedOrigin(origin, Some(b + "," + a))
  {
    if Truthy(origin) {
      assert (a + "," + b)[|a|] == ',' && (b + "," + a)[|b|] == ',';
      DecidedByEntries(origin.value, a + "," + b);
      DecidedByEntries(origin.value, b + "," + a);
      EntriesAppend(a, b);
      EntriesAppend(b, a);
      DecideSameEntries(origin.value, Entries(a) + Entries(b), Entries(b) + Entries(a));
    }
  }

  /** A single entry without separators or surrounding whitespace parses
      to itself. */
  lemma EntriesSingle(e: string)
    requires e != "" && ',' !in e
    requires !IsWhitespace(e[0]) && !IsWhitespace(e[|e| - 1])
    ensures Entries(e) == [e]
  {
    SplitNoSeparator(e, ',');
    assert [] + e + [] == e;
    TrimSurrounded([], e, []);
    assert TrimEach([e]) == [Trim(e)];
  }

  /** Appending a well-formed entry to an allow-list appends it to the
      parsed entries. */
  lemma EntriesAppendSingle(raw: string, e: string)
    requires e != "" && ',' !in e
    requires !IsWhitespace(e[0]) && !IsWhitespace(e[|e| - 1])
    ensures Entries(raw + "," + e) == Entries(raw) + [e]
  {
    EntriesAppend(raw, e);
    EntriesSingle(e);
  }

  /** Appending an origin, as a trimmed entry, to any allow-list admits it:
      the origin is echoed back unless a wildcard entry already admits
      everyone. */
  lemma AppendedOriginAdmitted(origin: string, raw: string)
    requires origin != "" && ',' !in origin
    requires !IsWhitespace(origin[0]) && !IsWhitespace(origin[|origin| - 1])
    ensures AllowedOrigin(Some(origin), Some(raw + "," + origin))
      == if Wildcard in Entries(raw) then Wildcard else origin
  {
    assert (raw + "," + origin)[|raw|] == ',';
    DecidedByEntries(origin, raw + "," + origin);
    EntriesAppendSingle(raw, origin);
  }

  /** An allow-list of two origins, neither of them the wildcard: each
      listed origin is echoed back and every other origin is denied. */
  lemma {:induction false} TwoEntryList(a: string, b: string, c: string)
    requires a != "" && ',' !in a && !IsWhitespace(a[0]) && !IsWhitespace(a[|a| - 1])
    requires b != "" && ',' !in b && !IsWhitespace(b[0]) && !IsWhitespace(b[|b| - 1])
    requires a != Wildcard && b != Wildcard
    requires c != "" && c != a && c != b
    ensures AllowedOrigin(Some(a), Some(a + "," + b)) == a
    ensures AllowedOrigin(Some(b), Some(a + "," + b)) == b
    ensures AllowedOrigin(Some(c), Some(a + "," + b)) == Denied
  {
    var raw := a + "," + b;
    assert raw[|a|] == ',';
    EntriesPair(a, b);
    PairDecides(a, raw, a, b);
    PairDecides(b, raw, a, b);
    PairDecides(c, raw, a, b);
  }

  /** The decision for an allow-list that parses to two non-wildcard
      entries. */
  lemma PairDecides(origin: string, raw: string, a: string, b: string)
    requires origin != "" && raw != "" && Entries(raw) == [a, b]
    requires a != Wildcard && b != Wildcard
    ensures AllowedOrigin(Some(origin), Some(raw)) == if origin == a || origin == b then origin else Denied
  {
    DecidedByEntries(origin, raw);
    assert Wildcard !in [a, b];
  }

  lemma EntriesPair(a: string, b: string)
    requires a != "" && ',' !in a && !IsWhitespace(a[0]) && !IsWhitespace(a[|a| - 1])
    requires b != "" && ',' !in b && !IsWhitespace(b[0]) && !IsWhitespace(b[|b| - 1])
    ensures Entries(a + "," + b) == [a, b]
  {
    EntriesSingle(a);
    EntriesAppendSingle(a, b);
  }
}

=== FILE: decimal.dfy ===
/** Decimal numerals as JavaScript writes them: `String(n)` for an integer
    and `s.padStart(width, "0")`, with `Value` as the reading back. */
module Decimal {

  predicate IsDigit(c: char) {
    '0' <= c <= '9'
  }

  predicate AllDigits(s: string) {
    forall i :: 0 <= i < |s| ==> IsDigit(s[i])
  }

  function DigitChar(d: nat): (c: char)
    requires d < 10
    ensures IsDigit(c) && (c as int) - ('0' as int) == d
  {
    (('0' as int) + d) as char
  }

  /** The number a string of decimal digits denotes (leading zeros allowed). */
  function Value(s: string): nat
    requires AllDigits(s)
    decreases |s|
  {
    if |s| == 0 then 0
    else Value(s[..|s| - 1]) * 10 + ((s[|s| - 1] as int) - ('0' as int))
  }

  function Pow10(k: nat): (p: nat)
    ensures p >= 1
  {
    if k == 0 then 1 else 10 * Pow10(k - 1)
  }

  /** `String(n)` for a non-negative integer: the shortest numeral for `n`,
      with no leading zero, of exactly as many digits as `n` needs. */
  function NatToString(n: nat): (s: string)
    ensures |s| >= 1 && AllDigits(s)
    ensures Value(s) == n
    ensures |s| > 1 ==> s[0] != '0'
    ensures n < Pow10(|s|) && (|s| > 1 ==> Pow10(|s| - 1) <= n)
    decreases n
  {
    if n < 10 then [DigitChar(n)]
    else
      var s := NatToString(n / 10) + [DigitChar(n % 10)];
      assert s[..|s| - 1] == NatToString(n / 10);
      s
  }

  /** `String(i)` for any integer: a minus sign before negative numbers,
      then the digits of the magnitude with no leading zero. */
  function IntToString(i: int): (s: string)
    ensures i >= 0 ==> AllDigits(s) && Value(s) == i && |s| >= 1 && (|s| > 1 ==> s[0] != '0')
    ensures i < 0 ==> |s| >= 2 && s[0] == '-'
    ensures i < 0 ==> AllDigits(s[1..]) && Value(s[1..]) == -i && (|s| > 2 ==> s[1] != '0')
  {
    if i < 0 then
      var d := NatToString(-i);
      assert ("-" + d)[1..] == d;
      "-" + d
    else NatToString(i)
  }

  function Repeat(c: char, k: nat): (s: string)
    ensures |s| == k && forall i :: 0 <= i < k ==> s[i] == c
  {
    if k == 0 then "" else [c] + Repeat(c, k - 1)
  }

  /** `s.padStart(width, fill)` for a one-character fill string: strings
      shorter than `width` get copies of `fill` in front up to `width`,
      longer ones are returned unchanged. */
  function PadStart(s: string, width: nat, fill: char): (r: string)
    ensures |r| == if |s| < width then width else |s|
    ensures r[|r| - |s|..] == s
    ensures forall i :: 0 <= i < |r| - |s| ==> r[i] == fill
  {
    if |s| < width then Repeat(fill, width - |s|) + s else s
  }

  lemma {:induction false} ValueOfZeros(z: string)
    requires forall i :: 0 <= i < |z| ==> z[i] == '0'
    ensures AllDigits(z) && Value(z) == 0
    decreases |z|
  {
    if |z| > 0 {
      ValueOfZeros(z[..|z| - 1]);
    }
  }

  /** Leading zeros do not change the value of a numeral. */
  lemma {:induction false} LeadingZeros(z: string, s: string)
    requires forall i :: 0 <= i < |z| ==> z[i] == '0'
    requires AllDigits(s)
    ensures AllDigits(z + s) && Value(z + s) == Value(s)
    decreases |s|
  {
    if |s| == 0 {
      assert z + s == z;
      ValueOfZeros(z);
    } else {
      LeadingZeros(z, s[..|s| - 1]);
      assert (z + s)[..|z + s| - 1] == z + s[..|s| - 1];
    }
  }

  /** Zero-padding a numeral keeps its value. */
  lemma ZeroPadValue(s: string, width: nat)
    requires AllDigits(s)
    ensures AllDigits(PadStart(s, width, '0'))
    ensures Value(PadStart(s, width, '0')) == Value(s)
  {
    if |s| < width {
      LeadingZeros(Repeat('0', width - |s|), s);
    }
  }

  /** `String(n)` has exactly `k` digits for the `k`-digit numbers. */
  lemma NatToStringLength(n: nat, k: nat)
    requires k >= 1
    requires (k == 1 || Pow10(k - 1) <= n) && n < Pow10(k)
    ensures |NatToString(n)| == k
  {
    var s := NatToString(n);
    if |s| < k {
      Pow10Monotone(|s|, k - 1);
    } else if |s| > k {
      Pow10Monotone(k, |s| - 1);
    }
  }

  lemma {:induction false} Pow10Monotone(i: nat, j: nat)
    requires i <= j
    ensures Pow10(i) <= Pow10(j)
    decreases j
  {
    if i < j {
      Pow10Monotone(i, j - 1);
    }
  }
}

=== FILE: jstext.dfy ===
/** The pieces of JavaScript string behaviour both scripts rely on:
    truthiness of a string-or-null, `String.prototype.trim` and
    `String.prototype.split` on a one-character separator. */
module JsText {
  import opened Wrappers
  import opened Seqs

  /** JavaScript truthiness of a value that is a string or null/undefined:
      only a present, non-empty string is truthy. */
  predicate Truthy(v: Option<string>) {
    v.Some? && v.value != ""
  }

  /** `v || fallback` for a string-or-null `v`. */
  function OrElse(v: Option<string>, fallback: string): (r: string)
    ensures Truthy(v) ==> r == v.value
    ensures !Truthy(v) ==> r == fallback
  {
    if Truthy(v) then v.value else fallback
  }

  /** The code points `trim` removes: ECMAScript WhiteSpace (tab, vertical
      tab, form feed, space, no-break space, zero width no-break space and
      the Unicode space separators) and LineTerminator (LF, CR, line and
      paragraph separators). */
  predicate IsWhitespace(c: char) {
    || c == '\t' || c == '\n' || c == '\U{000B}' || c == '\U{000C}' || c == '\r'
    || c == ' ' || c == '\U{00A0}' || c == '\U{1680}'
    || ('\U{2000}' <= c <= '\U{200A}')
    || c == '\U{2028}' || c == '\U{2029}' || c == '\U{202F}' || c == '\U{205F}'
    || c == '\U{3000}' || c == '\U{FEFF}'
  }

  predicate AllWhitespace(s: string) {
    forall i :: 0 <= i < |s| ==> IsWhitespace(s[i])
  }

  /** Leading whitespace removed: the result is the longest suffix of `s`
      that does not start with whitespace. */
  function TrimStart(s: string): (r: string)
    ensures |r| <= |s| && r == s[|s| - |r|..]
    ensures AllWhitespace(s[..|s| - |r|])
    ensures r == [] || !IsWhitespace(r[0])
    decreases |s|
  {
    if |s| > 0 && IsWhitespace(s[0]) then
      var r := TrimStart(s[1..]);
      TrimStartStep(s, r);
      r
    else s
  }

  lemma TrimStartStep(s: string, r: string)
    requires |s| > 0 && IsWhitespace(s[0]) && |r| <= |s| - 1
    requires r == s[1..][|s| - 1 - |r|..] && AllWhitespace(s[1..][..|s| - 1 - |r|])
    ensures r == s[|s| - |r|..] && AllWhitespace(s[..|s| - |r|])
  {
    var n := |s| - |r|;
    assert s[1..][n - 1..] == s[n..];
    forall i | 0 <= i < n
      ensures IsWhitespace(s[..n][i])
    {
      if i > 0 {
        assert s[..n][i] == s[1..][..n - 1][i - 1];
      }
    }
  }

  /** Trailing whitespace removed: the result is the longest prefix of `s`
      that does not end with whitespace. */
  function TrimEnd(s: string): (r: string)
    ensures |r| <= |s| && r == s[..|r|]
    ensures AllWhitespace(s[|r|..])
    ensures r == [] || !IsWhitespace(r[|r| - 1])
    decreases |s|
  {
    if |s| > 0 && IsWhitespace(s[|s| - 1]) then
      var r := TrimEnd(s[..|s| - 1]);
      TrimEndStep(s, r);
      r
    else s
  }

  lemma TrimEndStep(s: string, r: string)
    requires |s| > 0 && IsWhitespace(s[|s| - 1]) && |r| <= |s| - 1
    requires r == s[..|s| - 1][..|r|] && AllWhitespace(s[..|s| - 1][|r|..])
    ensures r == s[..|r|] && AllWhitespace(s[|r|..])
  {
    assert s[..|s| - 1][..|r|] == s[..|r|];
    forall i | 0 <= i < |s| - |r|
      ensures IsWhitespace(s[|r|..][i])
    {
      if i < |s| - 1 - |r| {
        assert s[|r|..][i] == s[..|s| - 1][|r|..][i];
      }
    }
  }

  /** `s.trim()`: whitespace removed at both ends; the result neither
      starts nor ends with whitespace. */
  function Trim(s: string): (r: string)
    ensures |r| <= |s|
    ensures r == [] || (!IsWhitespace(r[0]) && !IsWhitespace(r[|r| - 1]))
  {
    var t := TrimStart(s);
    var r := TrimEnd(t);
    assert r != [] ==> r[0] == t[0];
    r
  }

  /** What `trim` removed is whitespace: the result is the infix of `s`
      starting at `i`, with only whitespace before and after it. */
  lemma TrimInfix(s: string) returns (i: nat)
    ensures i + |Trim(s)| <= |s| && Trim(s) == s[i..i + |Trim(s)|]
    ensures AllWhitespace(s[..i]) && AllWhitespace(s[i + |Trim(s)|..])
  {
    var t := TrimStart(s);
    var r := TrimEnd(t);
    i := |s| - |t|;
    SuffixSlices(s, i, |r|);
  }

  lemma {:induction false} TrimStartPrefix(a: string, m: string)
    requires AllWhitespace(a)
    requires m == [] || !IsWhitespace(m[0])
    ensures TrimStart(a + m) == m
    decreases |a|
  {
    if |a| > 0 {
      assert (a + m)[1..] == a[1..] + m;
      TrimStartPrefix(a[1..], m);
    } else {
      assert a + m == m;
    }
  }

  lemma {:induction false} TrimEndSuffix(m: string, b: string)
    requires AllWhitespace(b)
    requires m == [] || !IsWhitespace(m[|m| - 1])
    ensures TrimEnd(m + b) == m
    decreases |b|
  {
    if |b| > 0 {
      assert (m + b)[..|m + b| - 1] == m + b[..|b| - 1];
      TrimEndSuffix(m, b[..|b| - 1]);
    } else {
      assert m + b == m;
    }
  }

  /** The independent characterisation of `trim`: whatever whitespace
      surrounds a string that neither starts nor ends with whitespace is
      exactly what `trim` removes. */
  lemma TrimSurrounded(a: string, m: string, b: string)
    requires AllWhitespace(a) && AllWhitespace(b)
    requires m == [] || (!IsWhitespace(m[0]) && !IsWhitespace(m[|m| - 1]))
    ensures Trim(a + m + b) == m
  {
    if m == [] {
      assert a + m + b == a + b;
      assert AllWhitespace(a + b);
      TrimStartPrefix(a + b, []);
      assert a + b + [] == a + b;
    } else {
      assert a + m + b == a + (m + b);
      TrimStartPrefix(a, m + b);
      TrimEndSuffix(m, b);
    }
  }

  /** `trim` is idempotent. */
  lemma TrimIdempotent(s: string)
    ensures Trim(Trim(s)) == Trim(s)
  {
    var r := Trim(s);
    EmptyAround(r);
    TrimSurrounded([], r, []);
  }

  /** `s.split(sep)` for a one-character separator: the maximal
      separator-free pieces between separators, always at least one
      (the empty string splits into one empty piece). */
  function Split(s: string, sep: char): (parts: seq<string>)
    ensures |parts| >= 1
    ensures forall i :: 0 <= i < |parts| ==> sep !in parts[i]
    decreases |s|
  {
    if |s| == 0 then [""]
    else
      var rest := Split(s[1..], sep);
      if s[0] == sep then [""] + rest
      else [[s[0]] + rest[0]] + rest[1..]
  }

  /** `parts.join(sep)`: `sep` between neighbours. With a one-character
      separator it is the inverse of `Split`. */
  function Join(parts: seq<string>, sep: string): string
    decreases |parts|
  {
    if |parts| == 0 then ""
    else if |parts| == 1 then parts[0]
    else parts[0] + sep + Join(parts[1..], sep)
  }

  /** Joining the pieces of a split gives back the original string. */
  lemma {:induction false} JoinSplit(s: string, sep: char)
    ensures Join(Split(s, sep), [sep]) == s
    decreases |s|
  {
    if |s| > 0 {
      var rest := Split(s[1..], sep);
      JoinSplit(s[1..], sep);
      if s[0] == sep {
        assert Split(s, sep) == [""] + rest;
        assert ([""] + rest)[1..] == rest;
        assert s == [sep] + s[1..];
      } else {
        var parts := [[s[0]] + rest[0]] + rest[1..];
        assert Split(s, sep) == parts;
        assert parts[1..] == rest[1..];
        if |rest| == 1 {
          assert s == [s[0]] + s[1..];
        } else {
          assert Join(rest, [sep]) == rest[0] + [sep] + Join(rest[1..], [sep]);
          assert s == [s[0]] + s[1..];
        }
      }
    }
  }

  lemma {:induction false} SplitNoSeparator(s: string, sep: char)
    requires sep !in s
    ensures Split(s, sep) == [s]
    decreases |s|
  {
    if |s| > 0 {
      assert sep !in s[1..];
      SplitNoSeparator(s[1..], sep);
      assert s == [s[0]] + s[1..];
    }
  }

  /** One unfolding of `Split` at a leading character. */
  lemma SplitCons(c: char, t: string, sep: char)
    ensures Split([c] + t, sep) ==
      if c == sep then [""] + Split(t, sep)
      else [[c] + Split(t, sep)[0]] + Split(t, sep)[1..]
  {
    assert ([c] + t)[1..] == t;
  }

  /** Splitting at one separator splits the two sides independently. */
  lemma {:induction false} SplitAppend(a: string, b: string, sep: char)
    ensures Split(a + [sep] + b, sep) == Split(a, sep) + Split(b, sep)
    decreases |a|
  {
    if |a| == 0 {
      assert a + [sep] + b == [sep] + b;
      SplitCons(sep, b, sep);
    } else {
      var t := a[1..] + [sep] + b;
      SplitOff(a, [sep] + b);
      assert a + [sep] + b == [a[0]] + t;
      SplitCons(a[0], t, sep);
      SplitCons(a[0], a[1..], sep);
      SplitAppend(a[1..], b, sep);
      var rest, right := Split(a[1..], sep), Split(b, sep);
      if a[0] == sep {
        assert Split(a + [sep] + b, sep) == [""] + (rest + right);
        ConsAssoc("", rest, right);
      } else {
        ConcatParts(rest, right);
        var head := [a[0]] + rest[0];
        assert Split(a + [sep] + b, sep) == [head] + (rest[1..] + right);
        ConsAssoc(head, rest[1..], right);
      }
    }
  }

  /** Splitting a join of separator-free pieces gives back the pieces. */
  lemma {:induction false} SplitJoin(parts: seq<string>, sep: char)
    requires |parts| >= 1
    requires forall i :: 0 <= i < |parts| ==> sep !in parts[i]
    ensures Split(Join(parts, [sep]), sep) == parts
    decreases |parts|
  {
    if |parts| == 1 {
      SplitNoSeparator(parts[0], sep);
    } else {
      SplitJoin(parts[1..], sep);
      SplitAppend(parts[0], Join(parts[1..], [sep]), sep);
      SplitNoSeparator(parts[0], sep);
      assert [parts[0]] + parts[1..] == parts;
    }
  }
}

=== FILE: meal_page.dfy ===
/** What the meal page finally shows for lunch and dinner, given what the
    school-meal service answered: the left-to-right pass over the meal rows
    in `fetchMeals` and its two fallback messages. The page elements are
    modelled by the text each ends up holding. */
module MealPage {
  import opened Wrappers
  import opened MenuText

  /** The service answered, but no row was for this meal. */
  const NoInfo := "정보가 없습니다."
  /** The service answered without any meal information for the day. */
  const NoMealToday := "오늘은 급식 정보가 없습니다."
  /** The request or the handling of its answer failed. */
  const LoadFailed := "정보를 불러오지 못했습니다."

  /** `MMEAL_SC_CODE` of lunch and of dinner (breakfast is "1"). */
  const LunchCode := "2"
  const DinnerCode := "3"

  /** One entry of `mealServiceDietInfo[1].row`: `MMEAL_SC_CODE`,
      `DDISH_NM` and `CAL_INFO`. The dish is `None` when `DDISH_NM` is not a
      string, so that calling `replace` on it throws. */
  datatype Row = Row(code: string, dish: Option<string>, cal: string)

  /** A meal's two page elements: the menu text and the calories text. */
  datatype Panel = Panel(menu: string, cal: string)
  datatype Board = Board(lunch: Panel, dinner: Panel)

  /** What `fetch` and `response.json()` produced. */
  datatype MealReply =
      /** The request was rejected, the response was not ok, the body was
          not JSON, or `mealServiceDietInfo[1].row` could not be read: the
          handler throws before any row is looked at. */
    | Unavailable
      /** The answer has no (truthy) `mealServiceDietInfo`. */
    | NoMealInfo
      /** The rows of `mealServiceDietInfo[1].row`, in order. */
    | MealRows(rows: seq<Row>)

  /** How the pass over the rows ended: normally, or by an exception, with
      the board as it was when it stopped. */
  datatype Fold = Done(board: Board) | Threw(board: Board)

  /** The board when the answer was loaded: the loading texts are replaced
      by the no-information text and the calories are still empty. */
  const Start := Board(Panel(NoInfo, ""), Panel(NoInfo, ""))

  predicate AllDishes(rows: seq<Row>) {
    forall i :: 0 <= i < |rows| ==> rows[i].dish.Some?
  }

  /** One step of `rows.forEach`: the dish text is cleaned, and a lunch or
      dinner row then overwrites that meal's panel. */
  function ApplyRow(b: Board, row: Row): (b': Board)
    requires row.dish.Some?
    ensures row.code == LunchCode ==>
      b'.lunch == Panel(CleanMenu(row.dish.value), row.cal) && b'.dinner == b.dinner
    ensures row.code == DinnerCode ==>
      b'.dinner == Panel(CleanMenu(row.dish.value), row.cal) && b'.lunch == b.lunch
    ensures row.code != LunchCode && row.code != DinnerCode ==> b' == b
  {
    var menu := CleanMenu(row.dish.value);
    if row.code == LunchCode then b.(lunch := Panel(menu, row.cal))
    else if row.code == DinnerCode then b.(dinner := Panel(menu, row.cal))
    else b
  }

  /** `rows.forEach(...)`, stopping at the first row whose dish text cannot
      be cleaned; that happens whatever the row's meal code. */
  function ApplyRows(b: Board, rows: seq<Row>): (f: Fold)
    ensures f.Threw? <==> !AllDishes(rows)
    decreases |rows|
  {
    if |rows| == 0 then Done(b)
    else if rows[0].dish.None? then Threw(b)
    else
      var f := ApplyRows(ApplyRow(b, rows[0]), rows[1..]);
      assert AllDishes(rows) <==> AllDishes(rows[1..]) by {
        if AllDishes(rows[1..]) {
          forall i | 0 <= i < |rows|
            ensures rows[i].dish.Some?
          {
            if i > 0 { assert rows[i] == rows[1..][i - 1]; }
          }
        }
      }
      f
  }

  /** Row `i` has the code and no later row has it. */
  predicate LastAt(rows: seq<Row>, i: int, code: string) {
    && 0 <= i < |rows| && rows[i].code == code
    && forall j :: i < j < |rows| ==> rows[j].code != code
  }

  /** The last row with the given meal code, searched from the end: the
      reference for which row the page ends up showing. */
  function LastWithCode(rows: seq<Row>, code: string): (r: Option<Row>)
    ensures r.Some? ==> r.value in rows && r.value.code == code
    ensures r.Some? ==> exists i :: LastAt(rows, i, code) && rows[i] == r.value
    ensures r.None? <==> forall i :: 0 <= i < |rows| ==> rows[i].code != code
    decreases |rows|
  {
    if |rows| == 0 then None
    else if rows[|rows| - 1].code == code then Some(rows[|rows| - 1])
    else
      var init := rows[..|rows| - 1];
      var r := LastWithCode(init, code);
      assert forall i :: 0 <= i < |rows| - 1 ==> init[i] == rows[i];
      assert r.Some? ==> exists i :: LastAt(rows, i, code) && rows[i] == r.value by {
        if r.Some? {
          var i :| LastAt(init, i, code) && init[i] == r.value;
          assert LastAt(rows, i, code);
        }
      }
      r
  }

  /** A panel after the rows: the last row with the code, cleaned, or the
      panel unchanged when there is none. */
  function PanelAfter(p: Panel, rows: seq<Row>, code: string): Panel
    requires AllDishes(rows)
  {
    match LastWithCode(rows, code)
    case None => p
    case Some(r) => Panel(CleanMenu(r.dish.value), r.cal)
  }

  function BoardAfter(b: Board, rows: seq<Row>): Board
    requires AllDishes(rows)
  {
    Board(PanelAfter(b.lunch, rows, LunchCode), PanelAfter(b.dinner, rows, DinnerCode))
  }

  /** Running over `xs + ys` is running over `xs`, then over `ys` from where
      `xs` left the board, unless `xs` already threw. */
  lemma {:induction false} ApplyRowsAppend(b: Board, xs: seq<Row>, ys: seq<Row>)
    ensures ApplyRows(b, xs + ys) ==
      match ApplyRows(b, xs)
      case Done(b') => ApplyRows(b', ys)
      case Threw(b') => Threw(b')
    decreases |xs|
  {
    if |xs| == 0 {
      assert xs + ys == ys;
    } else {
      assert (xs + ys)[0] == xs[0];
      assert (xs + ys)[1..] == xs[1..] + ys;
      if xs[0].dish.Some? {
        ApplyRowsAppend(ApplyRow(b, xs[0]), xs[1..], ys);
      }
    }
  }

  /** When every dish text can be cleaned, the left-to-right pass leaves
      each meal showing its last row, or what it showed before when no row
      has its code. */
  lemma {:induction false} ApplyRowsLastWins(b: Board, rows: seq<Row>)
    requires AllDishes(rows)
    ensures ApplyRows(b, rows) == Done(BoardAfter(b, rows))
    decreases |rows|
  {
    if |rows| > 0 {
      var init, last := rows[..|rows| - 1], rows[|rows| - 1];
      assert rows == init + [last];
      assert AllDishes(init) by {
        forall i | 0 <= i < |init| ensures init[i].dish.Some? { assert init[i] == rows[i]; }
      }
      ApplyRowsLastWins(b, init);
      ApplyRowsAppend(b, init, [last]);
      assert [last][1..] == [];
    }
  }

  /** When some dish text cannot be cleaned, the pass stops at the first
      such row, with the board the rows before it produced. */
  lemma ApplyRowsStops(b: Board, rows: seq<Row>, k: nat)
    requires k < |rows| && rows[k].dish.None? && AllDishes(rows[..k])
    ensures ApplyRows(b, rows) == Threw(BoardAfter(b, rows[..k]))
  {
    assert rows == rows[..k] + rows[k..];
    ApplyRowsAppend(b, rows[..k], rows[k..]);
    ApplyRowsLastWins(b, rows[..k]);
    assert rows[k..][0] == rows[k];
  }

  /** `fetchMeals` after the answer: what lunch and dinner finally show. An
      exception anywhere replaces both menus with the failure text but
      leaves calories already written in place. */
  function FetchMeals(reply: MealReply): (b: Board)
    ensures reply.Unavailable? ==> b == Board(Panel(LoadFailed, ""), Panel(LoadFailed, ""))
    ensures reply.NoMealInfo? ==> b == Board(Panel(NoMealToday, ""), Panel(NoMealToday, ""))
    ensures reply.MealRows? && AllDishes(reply.rows) ==> b == BoardAfter(Start, reply.rows)
    ensures reply.MealRows? && !AllDishes(reply.rows) ==>
      b.lunch.menu == LoadFailed && b.dinner.menu == LoadFailed
  {
    match reply
    case Unavailable => Board(Panel(LoadFailed, ""), Panel(LoadFailed, ""))
    case NoMealInfo => Board(Panel(NoMealToday, ""), Panel(NoMealToday, ""))
    case MealRows(rows) =>
      var f := ApplyRows(Start, rows);
      assert AllDishes(rows) ==> f == Done(BoardAfter(Start, rows)) by {
        if AllDishes(rows) { ApplyRowsLastWins(Start, rows); }
      }
      match f
      case Done(b) => b
      case Threw(b) => Board(Panel(LoadFailed, b.lunch.cal), Panel(LoadFailed, b.dinner.cal))
  }

  /** With every dish readable, lunch shows the last lunch row, cleaned, and
      its calories, or the no-information text and no calories when the
      day has no lunch row; likewise for dinner. */
  lemma MealsShown(rows: seq<Row>)
    requires AllDishes(rows)
    ensures var b := FetchMeals(MealRows(rows));
      && (LastWithCode(rows, LunchCode).None? ==> b.lunch == Panel(NoInfo, ""))
      && (LastWithCode(rows, LunchCode).Some? ==>
            var r := LastWithCode(rows, LunchCode).value;
            b.lunch == Panel(CleanMenu(r.dish.value), r.cal))
      && (LastWithCode(rows, DinnerCode).None? ==> b.dinner == Panel(NoInfo, ""))
      && (LastWithCode(rows, DinnerCode).Some? ==>
            var r := LastWithCode(rows, DinnerCode).value;
            b.dinner == Panel(CleanMenu(r.dish.value), r.cal))
  {
  }

  /** A later lunch or dinner row overrides every earlier row of its meal
      and leaves the other meal as it was. */
  lemma LaterRowOverrides(rows: seq<Row>, r: Row)
    requires AllDishes(rows) && r.dish.Some?
    requires r.code == LunchCode || r.code == DinnerCode
    ensures r.code == LunchCode ==>
      && FetchMeals(MealRows(rows + [r])).lunch == Panel(CleanMenu(r.dish.value), r.cal)
      && FetchMeals(MealRows(rows + [r])).dinner == FetchMeals(MealRows(rows)).dinner
    ensures r.code == DinnerCode ==>
      && FetchMeals(MealRows(rows + [r])).dinner == Panel(CleanMenu(r.dish.value), r.cal)
      && FetchMeals(MealRows(rows + [r])).lunch == FetchMeals(MealRows(rows)).lunch
  {
    var rows' := rows + [r];
    assert rows'[..|rows'| - 1] == rows;
    assert AllDishes(rows') by {
      forall i | 0 <= i < |rows'| ensures rows'[i].dish.Some? {
        if i < |rows| { assert rows'[i] == rows[i]; }
      }
    }
  }

  /** A row for neither lunch nor dinner whose dish text can be cleaned
      changes nothing, wherever it stands. */
  lemma OtherMealIgnored(xs: seq<Row>, r: Row, ys: seq<Row>)
    requires r.code != LunchCode && r.code != DinnerCode && r.dish.Some?
    ensures FetchMeals(MealRows(xs + [r] + ys)) == FetchMeals(MealRows(xs + ys))
  {
    ApplyRowsAppend(Start, xs, [r] + ys);
    ApplyRowsAppend(Start, xs, ys);
    assert xs + [r] + ys == xs + ([r] + ys);
    match ApplyRows(Start, xs)
    case Done(b) =>
      assert ([r] + ys)[0] == r && ([r] + ys)[1..] == ys;
      assert ApplyRow(b, r) == b;
    case Threw(b) =>
  }

  /** A row whose dish text cannot be cleaned makes both menus show the
      failure text, even when it is for neither meal; calories written by
      the rows before it stay. */
  lemma UnreadableRowFails(rows: seq<Row>, k: nat)
    requires k < |rows| && rows[k].dish.None? && AllDishes(rows[..k])
    ensures FetchMeals(MealRows(rows)) ==
      var b := BoardAfter(Start, rows[..k]);
      Board(Panel(LoadFailed, b.lunch.cal), Panel(LoadFailed, b.dinner.cal))
  {
    ApplyRowsStops(Start, rows, k);
  }

  /** `fetchMeals` as the page runs it: a loop over the rows that writes
      the panels in place and leaves it at the first row that throws. */
  method RenderMeals(reply: MealReply) returns (b: Board)
    ensures b == FetchMeals(reply)
    ensures reply.MealRows? && AllDishes(reply.rows) ==> b == BoardAfter(Start, reply.rows)
  {
    match reply {
      case Unavailable =>
        b := Board(Panel(LoadFailed, ""), Panel(LoadFailed, ""));
      case NoMealInfo =>
        b := Board(Panel(NoMealToday, ""), Panel(NoMealToday, ""));
      case MealRows(rows) =>
        b := Start;
        var i := 0;
        while i < |rows|
          invariant 0 <= i <= |rows|
          invariant AllDishes(rows[..i])
          invariant b == BoardAfter(Start, rows[..i])
        {
          if rows[i].dish.None? {
            ApplyRowsStops(Start, rows, i);
            b := Board(Panel(LoadFailed, b.lunch.cal), Panel(LoadFailed, b.dinner.cal));
            return;
          }
          assert rows[..i + 1] == rows[..i] + [rows[i]];
          assert AllDishes(rows[..i + 1]) by {
            var next := rows[..i + 1];
            forall k | 0 <= k < i + 1 ensures next[k].dish.Some? {
              if k < i { assert next[k] == rows[..i][k]; }
            }
          }
          ApplyRowsLastWins(Start, rows[..i]);
          ApplyRowsLastWins(Start, rows[..i + 1]);
          ApplyRowsAppend(Start, rows[..i], [rows[i]]);
          assert [rows[i]][1..] == [];
          b := ApplyRow(b, rows[i]);
          i := i + 1;
        }
        assert rows[..i] == rows;
        ApplyRowsLastWins(Start, rows);
    }
  }
}

=== FILE: meal_request.dfy ===
/** How the meal page names the day it asks for and builds the request URL
    of the school-meal service: the `YYYYMMDD` date key and the optional
    `&KEY=` suffix. */
module MealRequest {
  import opened Wrappers
  import opened JsText
  import opened Decimal

  /** The request URL up to the date key (office J10, school 7530908). */
  const MealBase := "https://open.neis.go.kr/hub/mealServiceDietInfo?Type=json&ATPT_OFCDC_SC_CODE=J10&SD_SCHUL_CODE=7530908&MLSV_YMD="
  const KeyParam := "&KEY="
  /** The placeholder string the code compares the key against ("put your
      issued key here", script.js:19); a key equal to it is treated as no
      key. */
  const KeyPlaceholder := "기에_발급받은_키를_넣으세요"

  /** The global `CONFIG` object, when the page defines one. */
  datatype Config = Config(apiKey: Option<string>)

  /** `s` is a string of decimal digits denoting `n`. */
  predicate Reads(s: string, n: int) {
    AllDigits(s) && Value(s) == n
  }

  /** `ymd`: the year as `String` writes it, then the month and the day of
      the month, each zero-padded to two digits. For a four-digit year and
      a calendar month and day, the key is eight digits that read back as
      year, month and day. */
  function Ymd(year: int, month: nat, day: nat): (s: string)
    ensures 1000 <= year <= 9999 && 1 <= month <= 12 && 1 <= day <= 31 ==>
      && |s| == 8 && AllDigits(s)
      && Reads(s[..4], year) && Reads(s[4..6], month) && Reads(s[6..8], day)
  {
    var ys := IntToString(year);
    var mp, dp := PadStart(NatToString(month), 2, '0'), PadStart(NatToString(day), 2, '0');
    if 1000 <= year <= 9999 && 1 <= month <= 12 && 1 <= day <= 31 then
      FourDigits(year);
      TwoDigits(month);
      TwoDigits(day);
      Slices(ys, mp, dp);
      ys + mp + dp
    else
      ys + mp + dp
  }

  lemma Slices(a: string, b: string, c: string)
    requires |a| == 4 && |b| == 2 && |c| == 2
    requires AllDigits(a) && AllDigits(b) && AllDigits(c)
    ensures var s := a + b + c;
      && |s| == 8 && AllDigits(s)
      && s[..4] == a && s[4..6] == b && s[6..8] == c
  {
  }

  lemma {:induction false} FourDigits(n: nat)
    requires 1000 <= n <= 9999
    ensures var s := IntToString(n); |s| == 4 && AllDigits(s) && Value(s) == n
  {
    assert Pow10(3) == 1000 && Pow10(4) == 10000;
    NatToStringLength(n, 4);
  }

  lemma {:induction false} TwoDigits(n: nat)
    requires 1 <= n <= 99
    ensures var p := PadStart(NatToString(n), 2, '0');
      |p| == 2 && AllDigits(p) && Value(p) == n
  {
    assert Pow10(1) == 10 && Pow10(2) == 100;
    if n < 10 {
      NatToStringLength(n, 1);
    } else {
      NatToStringLength(n, 2);
    }
    ZeroPadValue(NatToString(n), 2);
  }

  /** Two calendar days share a key exactly when they are the same day. */
  lemma {:induction false} YmdInjective(y1: int, m1: nat, d1: nat, y2: int, m2: nat, d2: nat)
    requires 1000 <= y1 <= 9999 && 1 <= m1 <= 12 && 1 <= d1 <= 31
    requires 1000 <= y2 <= 9999 && 1 <= m2 <= 12 && 1 <= d2 <= 31
    ensures Ymd(y1, m1, d1) == Ymd(y2, m2, d2) <==> y1 == y2 && m1 == m2 && d1 == d2
  {
    var s1, s2 := Ymd(y1, m1, d1), Ymd(y2, m2, d2);
    if s1 == s2 {
      assert s1[..4] == s2[..4] && s1[4..6] == s2[4..6] && s1[6..8] == s2[6..8];
    }
  }

  /** `API_KEY`: the configured key, or the empty string when the page has
      no `CONFIG` object. */
  function ApiKey(config: Option<Config>): Option<string> {
    match config
    case None => Some("")
    case Some(c) => c.apiKey
  }

  /** The URL `fetchMeals` requests: the configured key decides the
      suffix, and a page without `CONFIG` requests the bare URL. */
  function RequestUrl(ymd: string, config: Option<Config>): (url: string)
    ensures config.None? ==> url == MealBase + ymd
    ensures config.Some? && KeyUsable(config.value.apiKey) ==>
      url == MealBase + ymd + KeyParam + config.value.apiKey.value
    ensures config.Some? && !KeyUsable(config.value.apiKey) ==> url == MealBase + ymd
  {
    var key := ApiKey(config);
    assert config.None? ==> !KeyUsable(key);
    var url := MealUrl(ymd, key);
    assert url == url[..|MealBase + ymd|] + url[|MealBase + ymd|..];
    url
  }

  /** The key is sent only when it is truthy and not the placeholder. */
  predicate KeyUsable(key: Option<string>) {
    Truthy(key) && key.value != KeyPlaceholder
  }

  /** `URL`: the base with the date key, then `&KEY=<key>` exactly when the
      key is usable. */
  function MealUrl(ymd: string, key: Option<string>): (url: string)
    ensures |url| >= |MealBase + ymd| && url[..|MealBase + ymd|] == MealBase + ymd
    ensures KeyUsable(key) <==> |url| > |MealBase + ymd|
    ensures KeyUsable(key) ==> url[|MealBase + ymd|..] == KeyParam + key.value
  {
    var url := MealBase + ymd;
    if KeyUsable(key) then url + KeyParam + key.value else url
  }

  /** Reads a request URL back into its date key and key, assuming an
      eight-character date key. */
  function ParseMealUrl(url: string): Option<(string, Option<string>)> {
    var n := |MealBase|;
    if |url| < n + 8 || url[..n] != MealBase then None
    else
      var rest := url[n + 8..];
      if rest == "" then Some((url[n..n + 8], None))
      else if |rest| >= |KeyParam| && rest[..|KeyParam|] == KeyParam then
        Some((url[n..n + 8], Some(rest[|KeyParam|..])))
      else None
  }

  /** The URL carries the date key and, exactly when usable, the key. */
  lemma MealUrlRoundTrip(ymd: string, key: Option<string>)
    requires |ymd| == 8
    ensures ParseMealUrl(MealUrl(ymd, key))
      == Some((ymd, if KeyUsable(key) then Some(key.value) else None))
  {
    var url := MealUrl(ymd, key);
    var n := |MealBase|;
    assert url[..n] == (MealBase + ymd)[..n] == MealBase;
    assert url[n..n + 8] == (MealBase + ymd)[n..] == ymd;
    if KeyUsable(key) {
      assert url[n + 8..] == KeyParam + key.value;
    } else {
      assert url[n + 8..] == "";
    }
  }
}

=== FILE: menu_text.dfy ===
/** The meal page's `cleanMenu` rewrite of a dish list: allergen notes in
    parentheses are deleted (`/\([^)]*\)/g` replaced by nothing), then each
    self-closing line break `<br/>` becomes `<br>`. Both rewrites are
    global, left-to-right and non-overlapping, as JavaScript's `replace`
    with a global regular expression is. */
module MenuText {
  import opened Seqs
  import opened JsText

  /** No `(` is followed anywhere later by a `)`: nothing the parenthesis
      rewrite could still match. */
  predicate ParenFree(s: string) {
    forall i, j :: 0 <= i < j < |s| && s[i] == '(' ==> s[j] != ')'
  }

  /** The position of the first `)`. */
  function FirstClose(s: string): (i: nat)
    requires ')' in s
    ensures i < |s| && s[i] == ')'
    ensures forall k :: 0 <= k < i ==> s[k] != ')'
    decreases |s|
  {
    if s[0] == ')' then 0
    else
      assert ')' in s[1..] by {
        var k :| 0 <= k < |s| && s[k] == ')';
        assert s[1..][k - 1] == ')';
      }
      1 + FirstClose(s[1..])
  }

  lemma ParenFreeCons(c: char, t: string)
    requires ParenFree(t)
    requires c == '(' ==> ')' !in t
    ensures ParenFree([c] + t)
  {
    var s := [c] + t;
    forall i, j | 0 <= i < j < |s| && s[i] == '('
      ensures s[j] != ')'
    {
      assert s[j] == t[j - 1];
      if i > 0 {
        assert s[i] == t[i - 1];
      }
    }
  }

  /** `.replace(/\([^)]*\)/g, '')`: at a `(` that has a `)` somewhere after
      it, everything up to and including the first such `)` is deleted
      (an inner `(` included); any other character is kept. The result
      keeps no pattern the rewrite could match. */
  function StripParens(s: string): (r: string)
    ensures |r| <= |s|
    ensures forall c :: c in r ==> c in s
    ensures ParenFree(r)
    decreases |s|
  {
    if |s| == 0 then ""
    else if s[0] == '(' && ')' in s then
      var j := FirstClose(s);
      var r := StripParens(s[j + 1..]);
      assert forall c :: c in s[j + 1..] ==> c in s;
      r
    else
      var t := StripParens(s[1..]);
      assert forall c :: c in s[1..] ==> c in s;
      ParenFreeCons(s[0], t);
      [s[0]] + t
  }

  /** Text without a `(` ... `)` pattern is left alone. */
  lemma {:induction false} StripParensFixpoint(s: string)
    requires ParenFree(s)
    ensures StripParens(s) == s
    decreases |s|
  {
    if |s| > 0 {
      if s[0] == '(' {
        assert ')' !in s by {
          forall j | 0 <= j < |s|
            ensures s[j] != ')'
          {
            if j > 0 { assert s[0] == '('; }
          }
        }
      }
      assert ParenFree(s[1..]) by {
        forall i, j | 0 <= i < j < |s[1..]| && s[1..][i] == '('
          ensures s[1..][j] != ')'
        {
          assert s[i + 1] == '(';
        }
      }
      StripParensFixpoint(s[1..]);
      assert s == [s[0]] + s[1..];
    }
  }

  /** The rewrite changes a string exactly when the string holds a `(`
      followed later by a `)`. */
  lemma StripParensUnchangedIff(s: string)
    ensures StripParens(s) == s <==> ParenFree(s)
  {
    if ParenFree(s) {
      StripParensFixpoint(s);
    }
  }

  /** A parenthesised group with no `)` inside, after text without any `(`,
      is deleted as a whole and the scan goes on after it. */
  lemma {:induction false} StripParensGroup(a: string, m: string, b: string)
    requires '(' !in a && ')' !in m
    ensures StripParens(a + "(" + m + ")" + b) == a + StripParens(b)
    decreases |a|
  {
    if |a| == 0 {
      assert a + "(" + m + ")" + b == "(" + m + ")" + b;
      GroupHead(m, b);
    } else {
      var g := "(" + m + ")" + b;
      Assoc5(a, "(", m, ")", b);
      Assoc5(a[1..], "(", m, ")", b);
      ConsConcat(a, g);
      KeepHead(a[0], a[1..] + g);
      assert '(' !in a[1..] by {
        forall c | c in a[1..] ensures c != '(' {
          assert c in a;
        }
      }
      StripParensGroup(a[1..], m, b);
      ConsConcat(a, StripParens(b));
    }
  }

  /** A leading group with no `)` inside is deleted as a whole. */
  lemma GroupHead(m: string, b: string)
    requires ')' !in m
    ensures StripParens("(" + m + ")" + b) == StripParens(b)
  {
    var s := "(" + m + ")" + b;
    assert s[|m| + 1] == ')';
    var j := FirstClose(s);
    assert j == |m| + 1 by {
      forall k | 1 <= k < |m| + 1
        ensures s[k] != ')'
      {
        assert s[k] == m[k - 1];
      }
    }
    assert s[j + 1..] == b;
  }

  /** A leading character other than `(` is kept. */
  lemma KeepHead(c: char, t: string)
    requires c != '('
    ensures StripParens([c] + t) == [c] + StripParens(t)
  {
    assert ([c] + t)[1..] == t;
  }

  const BrSlash := "<br/>"
  const Br := "<br>"

  predicate StartsWithBrSlash(s: string) {
    |s| >= 5 && s[..5] == BrSlash
  }

  /** No `<br/>` occurs anywhere. */
  predicate NoBrSlash(s: string) {
    forall i :: 0 <= i < |s| ==> !StartsWithBrSlash(s[i..])
  }

  /** `.replace(/<br\/>/g, '<br>')`: every `<br/>`, scanning left to
      right, becomes `<br>`; nothing else changes. */
  function ReplaceBr(s: string): (r: string)
    ensures |r| <= |s|
    ensures forall c :: c in r ==> c in s
    decreases |s|
  {
    if |s| == 0 then ""
    else if StartsWithBrSlash(s) then
      var t := ReplaceBr(s[5..]);
      assert forall c :: c in s[5..] ==> c in s;
      assert s[0] == '<' && s[1] == 'b' && s[2] == 'r' && s[4] == '>';
      Br + t
    else
      var t := ReplaceBr(s[1..]);
      assert forall c :: c in s[1..] ==> c in s;
      [s[0]] + t
  }

  /** Up to its first `<`, the rewritten text is the original text. */
  lemma {:induction false} ReplaceBrPrefix(t: string, k: nat)
    requires k <= |ReplaceBr(t)|
    requires forall j :: 0 <= j < k ==> ReplaceBr(t)[j] != '<'
    ensures k <= |t| && t[..k] == ReplaceBr(t)[..k]
    decreases |t|
  {
    if k > 0 {
      var r := ReplaceBr(t);
      ReplaceBrHead(t);
      assert !StartsWithBrSlash(t);
      {
        var rest := ReplaceBr(t[1..]);
        assert r == [t[0]] + rest;
        assert forall j :: 0 <= j < k - 1 ==> rest[j] == r[j + 1];
        ReplaceBrPrefix(t[1..], k - 1);
        assert t[..k] == [t[0]] + t[1..][..k - 1];
        assert r[..k] == [t[0]] + rest[..k - 1];
      }
    }
  }

  lemma ReplaceBrHead(t: string)
    ensures StartsWithBrSlash(t) ==> ReplaceBr(t)[0] == '<'
  {
  }

  /** A `<br/>` cannot appear at the head of the rewritten text of a string
      that does not start with one. */
  lemma {:induction false} HeadNotBrSlash(s: string)
    requires |s| > 0 && !StartsWithBrSlash(s)
    ensures !StartsWithBrSlash(ReplaceBr(s))
  {
    var r := ReplaceBr(s);
    var t := ReplaceBr(s[1..]);
    assert r == [s[0]] + t;
    BrSlashChars(r);
    BrSlashChars(s);
    if |r| >= 5 {
      if t[0] != '<' && t[1] != '<' && t[2] != '<' && t[3] != '<' {
        ReplaceBrPrefix(s[1..], 4);
        assert s[1..][..4] == t[..4];
        assert s[1] == t[0] && s[2] == t[1] && s[3] == t[2] && s[4] == t[3];
      }
    }
  }

  lemma BrSlashChars(x: string)
    ensures StartsWithBrSlash(x) <==>
      |x| >= 5 && x[0] == '<' && x[1] == 'b' && x[2] == 'r' && x[3] == '/' && x[4] == '>'
  {
    if |x| >= 5 && x[0] == '<' && x[1] == 'b' && x[2] == 'r' && x[3] == '/' && x[4] == '>' {
      assert x[..5] == BrSlash;
    }
  }

  /** After the rewrite no `<br/>` is left: a `<br>` it writes cannot
      combine with what follows into a new `<br/>`. */
  lemma {:induction false} ReplaceBrComplete(s: string)
    ensures NoBrSlash(ReplaceBr(s))
    decreases |s|
  {
    if |s| > 0 {
      var r := ReplaceBr(s);
      if StartsWithBrSlash(s) {
        var t := ReplaceBr(s[5..]);
        ReplaceBrComplete(s[5..]);
        assert r == Br + t;
        forall i | 0 <= i < |r|
          ensures !StartsWithBrSlash(r[i..])
        {
          if i == 0 {
            assert r[3] == '>';
          } else if i < 4 {
            assert r[i] != '<';
          } else {
            assert r[i..] == t[i - 4..];
          }
        }
      } else {
        var t := ReplaceBr(s[1..]);
        ReplaceBrComplete(s[1..]);
        assert r == [s[0]] + t;
        forall i | 0 <= i < |r|
          ensures !StartsWithBrSlash(r[i..])
        {
          if i == 0 {
            HeadNotBrSlash(s);
            assert r[0..] == r;
          } else {
            assert r[i..] == t[i - 1..];
          }
        }
      }
    }
  }

  /** Text without `<br/>` is left alone. */
  lemma {:induction false} ReplaceBrFixpoint(s: string)
    requires NoBrSlash(s)
    ensures ReplaceBr(s) == s
    decreases |s|
  {
    if |s| > 0 {
      assert !StartsWithBrSlash(s[0..]);
      assert s[0..] == s;
      assert NoBrSlash(s[1..]) by {
        forall i | 0 <= i < |s[1..]|
          ensures !StartsWithBrSlash(s[1..][i..])
        {
          assert s[1..][i..] == s[i + 1..];
        }
      }
      ReplaceBrFixpoint(s[1..]);
      assert s == [s[0]] + s[1..];
    }
  }

  /** The line-break rewrite changes a string exactly when it holds a
      `<br/>`. */
  lemma ReplaceBrUnchangedIff(s: string)
    ensures ReplaceBr(s) == s <==> NoBrSlash(s)
  {
    if NoBrSlash(s) {
      ReplaceBrFixpoint(s);
    } else {
      ReplaceBrComplete(s);
    }
  }

  /** Text up to the first `<br/>` is kept, that `<br/>` becomes `<br>`,
      and the rewrite goes on after it. */
  lemma {:induction false} ReplaceBrFirst(a: string, b: string)
    requires NoBrSlash(a)
    ensures ReplaceBr(a + BrSlash + b) == a + Br + ReplaceBr(b)
    decreases |a|
  {
    var s := a + BrSlash + b;
    if |a| == 0 {
      assert s == BrSlash + b;
      assert s[..5] == BrSlash;
      assert s[5..] == b;
    } else {
      assert !StartsWithBrSlash(s) by {
        BrSlashChars(s);
        if |a| >= 5 {
          assert a[0..] == a;
          BrSlashChars(a);
          assert forall k :: 0 <= k < 5 ==> s[k] == a[k];
        } else {
          assert s[|a|] == '<';
        }
      }
      assert NoBrSlash(a[1..]) by {
        forall i | 0 <= i < |a[1..]|
          ensures !StartsWithBrSlash(a[1..][i..])
        {
          assert a[1..][i..] == a[i + 1..];
        }
      }
      assert s[1..] == a[1..] + BrSlash + b;
      ReplaceBrFirst(a[1..], b);
      ConsConcat(a, Br + ReplaceBr(b));
    }
  }

  /** Lines without `<br/>` joined by `<br/>` come out joined by `<br>`:
      every `<br/>` becomes `<br>` and nothing else changes. */
  lemma {:induction false} ReplaceBrLines(lines: seq<string>)
    requires forall i :: 0 <= i < |lines| ==> NoBrSlash(lines[i])
    ensures ReplaceBr(Join(lines, BrSlash)) == Join(lines, Br)
    decreases |lines|
  {
    if |lines| == 1 {
      ReplaceBrFixpoint(lines[0]);
    } else if |lines| > 1 {
      ReplaceBrFirst(lines[0], Join(lines[1..], BrSlash));
      ReplaceBrLines(lines[1..]);
    }
  }

  /** A `(` ... `)`-free line before a `<br/>` survives `cleanMenu` as it
      is, the `<br/>` becomes `<br>`, and cleaning goes on after it. */
  lemma CleanMenuLineBreak(a: string, b: string)
    requires '(' !in a && NoBrSlash(a)
    ensures CleanMenu(a + BrSlash + b) == a + Br + CleanMenu(b)
  {
    assert '(' !in a + BrSlash by {
      assert forall k :: 0 <= k < |BrSlash| ==> BrSlash[k] != '(';
    }
    StripParensKeep(a + BrSlash, b);
    ReplaceBrFirst(a, StripParens(b));
  }

  /** Text without `(` passes the parenthesis rewrite unchanged. */
  lemma {:induction false} StripParensKeep(a: string, b: string)
    requires '(' !in a
    ensures StripParens(a + b) == a + StripParens(b)
    decreases |a|
  {
    if |a| == 0 {
      assert a + b == b;
    } else {
      ConsConcat(a, b);
      KeepHead(a[0], a[1..] + b);
      assert '(' !in a[1..] by {
        forall c | c in a[1..] ensures c != '(' {
          assert c in a;
        }
      }
      StripParensKeep(a[1..], b);
      ConsConcat(a, StripParens(b));
    }
  }

  /** The line-break rewrite touches no parenthesis, so it cannot create a
      pattern for the parenthesis rewrite. */
  lemma {:induction false} ReplaceBrKeepsParenFree(s: string)
    requires ParenFree(s)
    ensures ParenFree(ReplaceBr(s))
    decreases |s|
  {
    if |s| > 0 {
      assert ParenFree(s[1..]) by {
        forall i, j | 0 <= i < j < |s[1..]| && s[1..][i] == '('
          ensures s[1..][j] != ')'
        {
          assert s[i + 1] == '(';
        }
      }
      if StartsWithBrSlash(s) {
        assert ParenFree(s[5..]) by {
          forall i, j | 0 <= i < j < |s[5..]| && s[5..][i] == '('
            ensures s[5..][j] != ')'
          {
            assert s[i + 5] == '(';
          }
        }
        ReplaceBrKeepsParenFree(s[5..]);
        var t := ReplaceBr(s[5..]);
        ParenFreeCons('>', t);
        ParenFreeCons('r', [ '>' ] + t);
        ParenFreeCons('b', ['r'] + ['>'] + t);
        ParenFreeCons('<', ['b'] + ['r'] + ['>'] + t);
        assert Br + t == ['<'] + (['b'] + (['r'] + (['>'] + t)));
      } else {
        ReplaceBrKeepsParenFree(s[1..]);
        var t := ReplaceBr(s[1..]);
        if s[0] == '(' {
          assert ')' !in s[1..] by {
            forall j | 0 <= j < |s[1..]|
              ensures s[1..][j] != ')'
            {
              assert s[j + 1] == s[1..][j];
            }
          }
        }
        ParenFreeCons(s[0], t);
      }
    }
  }

  /** `cleanMenu`: parentheses first, then line breaks. The result is no
      longer than the dish text and holds neither pattern. */
  function CleanMenu(dish: string): (r: string)
    ensures |r| <= |dish|
    ensures ParenFree(r)
    ensures NoBrSlash(r)
  {
    var t := StripParens(dish);
    ReplaceBrKeepsParenFree(t);
    ReplaceBrComplete(t);
    ReplaceBr(t)
  }

  /** Cleaning a cleaned dish text changes nothing. */
  lemma CleanMenuIdempotent(dish: string)
    ensures CleanMenu(CleanMenu(dish)) == CleanMenu(dish)
  {
    var r := CleanMenu(dish);
    StripParensFixpoint(r);
    ReplaceBrFixpoint(r);
  }

  /** `cleanMenu` leaves a text alone exactly when it holds neither a
      parenthesised group nor a `<br/>`. */
  lemma CleanMenuUnchangedIff(dish: string)
    ensures CleanMenu(dish) == dish <==> ParenFree(dish) && NoBrSlash(dish)
  {
    if ParenFree(dish) && NoBrSlash(dish) {
      StripParensFixpoint(dish);
      ReplaceBrFixpoint(dish);
    }
  }

  /** Parentheses go first: a note inside a `<br/>` is deleted and the
      line break it split is then rewritten. */
  lemma ParenthesesFirst(m: string)
    requires ')' !in m
    ensures CleanMenu("<br" + "(" + m + ")" + "/>") == Br
  {
    StripParensGroup("<br", m, "/>");
    assert ParenFree("/>");
    StripParensFixpoint("/>");
    assert "<br" + "/>" == BrSlash;
    assert ReplaceBr(BrSlash) == Br + ReplaceBr("");
  }
}

=== FILE: seqs.dfy ===
/** Facts about sequence concatenation and slicing, stated for any element
    type so that the solver meets them without the string functions
    around them. */
module Seqs {

  lemma ConsTail<T>(x: T, y: seq<T>)
    ensures ([x] + y)[0] == x && ([x] + y)[1..] == y
  {
  }

  lemma ConcatParts<T>(x: seq<T>, y: seq<T>)
    requires |x| >= 1
    ensures (x + y)[0] == x[0] && (x + y)[1..] == x[1..] + y
  {
  }

  lemma ConsConcat<T>(a: seq<T>, y: seq<T>)
    requires |a| > 0
    ensures [a[0]] + (a[1..] + y) == a + y
  {
    assert a == [a[0]] + a[1..];
  }

  lemma SplitOff<T>(a: seq<T>, m: seq<T>)
    requires |a| >= 1
    ensures a + m == [a[0]] + (a[1..] + m)
    ensures a == [a[0]] + a[1..]
  {
  }

  lemma AppendHead<T>(q: seq<T>, ps: seq<T>)
    requires |ps| > 0
    ensures q + [ps[0]] + ps[1..] == q + ps
  {
    assert [ps[0]] + ps[1..] == ps;
  }

  lemma ConsAssoc<T>(h: T, x: seq<T>, y: seq<T>)
    ensures [h] + (x + y) == ([h] + x) + y
  {
  }

  lemma Assoc5<T>(a: seq<T>, p: seq<T>, m: seq<T>, q: seq<T>, b: seq<T>)
    ensures a + p + m + q + b == a + (p + m + q + b)
  {
  }

  lemma EmptyAround<T>(r: seq<T>)
    ensures [] + r + [] == r
  {
  }

  /** Slicing a suffix is slicing the whole sequence further along. */
  lemma SuffixSlices<T>(s: seq<T>, i: nat, k: nat)
    requires i + k <= |s|
    ensures s[i..][..k] == s[i..i + k]
    ensures s[i..][k..] == s[i + k..]
  {
  }
}

=== FILE: weather_proxy.dfy ===
/** The edge proxy's `fetch` handler: one endpoint, `/weather`, that checks
    its configuration and its query, forwards the request to the forecast
    API with the secret key attached, and passes the answer back with the
    CORS headers. The upstream answer is an input: the handler reads only
    its status and body text. */
module WeatherProxy {
  import opened Wrappers
  import opened JsText
  import opened Seqs
  import Cors

  /** A list of name/value pairs: a query string or a header list. */
  type Pairs = seq<(string, string)>

  /** The inbound request: `url.pathname` as the URL parser yields it
      (still percent-encoded, dot segments resolved), the decoded query
      parameters in order, and the `Origin` header when present. */
  datatype Request = Request(path: string, query: Pairs, origin: Option<string>)

  /** The hosting environment: `OPENWEATHER_API_KEY` and `ALLOWED_ORIGINS`. */
  datatype Env = Env(apiKey: Option<string>, allowedOrigins: Option<string>)

  /** The outbound call: URL without query, query parameters, `Accept`. */
  datatype UpstreamRequest = UpstreamRequest(url: string, query: Pairs, accept: string)

  /** How the upstream call ended: an answer with its status and body
      text, or a rejected `fetch` or `upstream.text()`. */
  datatype UpstreamReply =
    | Answered(status: int, body: string)
    | Failed

  /** The handler's decision. `Forwarded` and `Threw` are the two outcomes
      after an upstream call; `Threw` is an exception nothing catches. */
  datatype Outcome =
    | NotFound
    | Rejected(status: int, error: string)
    | Forwarded(upstream: UpstreamRequest, status: int, body: string, headers: Pairs)
    | Threw(upstream: UpstreamRequest)

  /** The response as the client receives it. `Uncaught` is the platform's
      own error response to a handler that threw. */
  datatype Response =
    | Response(status: int, body: string, headers: Pairs)
    | Uncaught

  const Route := "/weather"
  const MissingKey := "OPENWEATHER_API_KEY is missing."
  const MissingCoordinates := "lat and lon are required."
  const DefaultUnits := "metric"
  const DefaultLang := "kr"
  const ForecastUrl := "https://api.openweathermap.org/data/2.5/forecast"
  const JsonType := "application/json; charset=utf-8"
  /** The type the Fetch Standard gives a string body; the `Response`
      constructor adds it as `Content-Type` when the init sets none. */
  const TextType := "text/plain;charset=UTF-8"
  const AcceptJson := "application/json"

  /** The statuses `new Response(body, { status })` accepts with a non-null
      body (a string, even an empty one): the range 200 to 599, without the
      null body statuses 204, 205 and 304 (101 and 103, the other two, are
      already out of range). Any other status throws. */
  predicate AcceptsBody(status: int) {
    200 <= status <= 599 && status != 204 && status != 205 && status != 304
  }

  /** `k` occurs in `s` starting at position `i`. */
  predicate OccursAt(k: string, s: string, i: int) {
    0 <= i && i + |k| <= |s| && s[i..i + |k|] == k
  }

  /** `k` occurs somewhere in `s`. */
  predicate Occurs(k: string, s: string) {
    exists i :: 0 <= i <= |s| && OccursAt(k, s, i)
  }

  function Names(q: Pairs): (ns: seq<string>)
    ensures |ns| == |q| && forall i :: 0 <= i < |q| ==> ns[i] == q[i].0
  {
    if |q| == 0 then [] else [q[0].0] + Names(q[1..])
  }

  /** `searchParams.get(name)`: the value of the first pair with that name,
      or nothing when no pair has it. */
  function Get(q: Pairs, name: string): (v: Option<string>)
    ensures v.None? <==> name !in Names(q)
    ensures v.Some? ==> (name, v.value) in q
    decreases |q|
  {
    if |q| == 0 then None
    else if q[0].0 == name then Some(q[0].1)
    else
      var v := Get(q[1..], name);
      assert Names(q) == [q[0].0] + Names(q[1..]);
      assert forall p :: p in q[1..] ==> p in q;
      v
  }

  /** A pair earlier than every other pair with its name is what `Get`
      finds. */
  lemma {:induction false} GetFirst(q: Pairs, name: string, i: nat)
    requires i < |q| && q[i].0 == name
    requires forall j :: 0 <= j < i ==> q[j].0 != name
    ensures Get(q, name) == Some(q[i].1)
    decreases i
  {
    if i > 0 {
      GetFirst(q[1..], name, i - 1);
    }
  }

  /** Every pair with the given name dropped. */
  function RemoveAll(q: Pairs, name: string): (r: Pairs)
    ensures name !in Names(r)
    decreases |q|
  {
    if |q| == 0 then []
    else if q[0].0 == name then RemoveAll(q[1..], name)
    else
      var r := [q[0]] + RemoveAll(q[1..], name);
      assert Names(r) == [q[0].0] + Names(RemoveAll(q[1..], name));
      r
  }

  lemma {:induction false} RemoveAllOthers(q: Pairs, name: string, other: string)
    requires other != name
    ensures Get(RemoveAll(q, name), other) == Get(q, other)
    decreases |q|
  {
    if |q| > 0 {
      RemoveAllOthers(q[1..], name, other);
    }
  }

  /** `searchParams.set(name, value)`: the first pair with that name takes
      the value and the others are removed; with no such pair, one is
      appended. */
  function SetParam(q: Pairs, name: string, value: string): (r: Pairs)
    ensures Get(r, name) == Some(value)
    ensures name !in Names(q) ==> r == q + [(name, value)]
    decreases |q|
  {
    if |q| == 0 then [(name, value)]
    else if q[0].0 == name then [(name, value)] + RemoveAll(q[1..], name)
    else
      var rest := SetParam(q[1..], name, value);
      var r := [q[0]] + rest;
      ConsTail(q[0], rest);
      assert Get(r, name) == Get(rest, name);
      assert name !in Names(q) ==> name !in Names(q[1..]) by {
        assert Names(q) == [q[0].0] + Names(q[1..]);
      }
      assert name !in Names(q) ==> r == q + [(name, value)] by {
        if name !in Names(q) {
          ConsConcat(q, [(name, value)]);
        }
      }
      r
  }

  /** Setting one parameter leaves every other parameter's value alone. */
  lemma {:induction false} SetParamOthers(q: Pairs, name: string, value: string, other: string)
    requires other != name
    ensures Get(SetParam(q, name, value), other) == Get(q, other)
    decreases |q|
  {
    if |q| > 0 {
      if q[0].0 == name {
        RemoveAllOthers(q[1..], name, other);
      } else {
        SetParamOthers(q[1..], name, value, other);
      }
    }
  }

  /** `searchParams.set` applied to each pair in turn. */
  function SetAll(q: Pairs, ps: Pairs): Pairs
    decreases |ps|
  {
    if |ps| == 0 then q else SetAll(SetParam(q, ps[0].0, ps[0].1), ps[1..])
  }

  /** Setting a name that no pair carries appends one pair. */
  lemma SetFresh(q: Pairs, name: string, value: string)
    requires forall i :: 0 <= i < |q| ==> q[i].0 != name
    ensures SetParam(q, name, value) == q + [(name, value)]
  {
    assert name !in Names(q);
  }

  /** Names of `ps` are pairwise distinct and absent from `q`. */
  predicate FreshNames(q: Pairs, ps: Pairs) {
    && (forall i, j :: 0 <= i < |ps| && 0 <= j < |q| ==> ps[i].0 != q[j].0)
    && (forall i, j :: 0 <= i < j < |ps| ==> ps[i].0 != ps[j].0)
  }

  lemma FreshNamesTail(q: Pairs, ps: Pairs)
    requires |ps| > 0 && FreshNames(q, ps)
    ensures FreshNames(q + [ps[0]], ps[1..])
  {
    var q' := q + [ps[0]];
    forall i, j | 0 <= i < |ps[1..]| && 0 <= j < |q'|
      ensures ps[1..][i].0 != q'[j].0
    {
      if j < |q| {
        assert ps[i + 1].0 != q[j].0;
      } else {
        assert ps[0].0 != ps[i + 1].0;
      }
    }
  }

  /** Setting pairwise distinct names that the query does not carry appends
      the pairs in order. */
  lemma {:induction false} SetAllFresh(q: Pairs, ps: Pairs)
    requires FreshNames(q, ps)
    ensures SetAll(q, ps) == q + ps
    decreases |ps|
  {
    if |ps| > 0 {
      var q' := q + [ps[0]];
      assert SetParam(q, ps[0].0, ps[0].1) == q' by {
        SetFresh(q, ps[0].0, ps[0].1);
      }
      FreshNamesTail(q, ps);
      SetAllFresh(q', ps[1..]);
      AppendHead(q, ps);
    }
  }

  /** The five names are pairwise distinct, so each `set` appends. */
  lemma SetFiveParams(lat: string, lon: string, units: string, lang: string, key: string)
    ensures SetAll([], [("lat", lat), ("lon", lon), ("units", units), ("lang", lang), ("appid", key)])
      == [("lat", lat), ("lon", lon), ("units", units), ("lang", lang), ("appid", key)]
  {
    var ps := [("lat", lat), ("lon", lon), ("units", units), ("lang", lang), ("appid", key)];
    forall i, j | 0 <= i < j < |ps|
      ensures ps[i].0 != ps[j].0
    {
      assert "lon"[1] != "lat"[1];
      assert "units"[0] != "lat"[0] && "units"[0] != "lon"[0];
      assert "lang"[2] != "lat"[2] && "lang"[1] != "lon"[1] && "lang"[0] != "units"[0];
      assert "appid"[0] != "lat"[0] && "appid"[0] != "lon"[0] && "appid"[0] != "units"[0] && "appid"[0] != "lang"[0];
    }
    assert FreshNames([], ps);
    SetAllFresh([], ps);
    assert [] + ps == ps;
  }

  /** The forwarded query: the five parameters set one after the other on
      the bare forecast URL; `appid` is the upstream's credential
      parameter. The names are distinct, so the query holds exactly the
      five pairs in that order. */
  function UpstreamQuery(lat: string, lon: string, units: string, lang: string, key: string): (q: Pairs)
    ensures q == [("lat", lat), ("lon", lon), ("units", units), ("lang", lang), ("appid", key)]
  {
    SetFiveParams(lat, lon, units, lang, key);
    SetAll([], [("lat", lat), ("lon", lon), ("units", units), ("lang", lang), ("appid", key)])
  }

  /** The headers of a forwarded response. */
  function ForwardHeaders(allowedOrigin: string): Pairs {
    [("Content-Type", JsonType), ("Access-Control-Allow-Origin", allowedOrigin), ("Vary", "Origin")]
  }

  /** `fetch(request, env)`, as a decision: the path, then the key, then the
      coordinates are checked, in that order; `units` and `lang` fall back
      to their defaults when absent or empty, with no other check. After
      the upstream call the handler throws when the call failed or when
      the upstream status cannot carry the body text. */
  function Handle(req: Request, env: Env, reply: UpstreamReply): (o: Outcome)
    ensures o.NotFound? <==> req.path != Route
    ensures o == Rejected(500, MissingKey) <==> req.path == Route && !Truthy(env.apiKey)
    ensures o == Rejected(400, MissingCoordinates) <==>
      && req.path == Route && Truthy(env.apiKey)
      && (!Truthy(Get(req.query, "lat")) || !Truthy(Get(req.query, "lon")))
    ensures o.Rejected? ==> o == Rejected(500, MissingKey) || o == Rejected(400, MissingCoordinates)
    ensures o.Threw? <==>
      && req.path == Route && Truthy(env.apiKey)
      && Truthy(Get(req.query, "lat")) && Truthy(Get(req.query, "lon"))
      && (reply.Failed? || !AcceptsBody(reply.status))
    ensures o.Forwarded? || o.Threw? ==>
      && o.upstream.url == ForecastUrl && o.upstream.accept == AcceptJson
      && o.upstream.query == [
           ("lat", Get(req.query, "lat").value),
           ("lon", Get(req.query, "lon").value),
           ("units", OrElse(Get(req.query, "units"), DefaultUnits)),
           ("lang", OrElse(Get(req.query, "lang"), DefaultLang)),
           ("appid", env.apiKey.value)]
    ensures o.Forwarded? ==>
      && reply.Answered? && o.status == reply.status && o.body == reply.body
      && o.headers == ForwardHeaders(Cors.AllowedOrigin(req.origin, env.allowedOrigins))
  {
    if req.path != Route then NotFound
    else if !Truthy(env.apiKey) then Rejected(500, MissingKey)
    else
      var lat := Get(req.query, "lat");
      var lon := Get(req.query, "lon");
      var units := OrElse(Get(req.query, "units"), DefaultUnits);
      var lang := OrElse(Get(req.query, "lang"), DefaultLang);
      if !Truthy(lat) || !Truthy(lon) then Rejected(400, MissingCoordinates)
      else
        var query := UpstreamQuery(lat.value, lon.value, units, lang, env.apiKey.value);
        var upstream := UpstreamRequest(ForecastUrl, query, AcceptJson);
        match reply
        case Failed => Threw(upstream)
        case Answered(status, body) =>
          if !AcceptsBody(status) then Threw(upstream)
          else
            var allowed := Cors.AllowedOrigin(req.origin, env.allowedOrigins);
            Forwarded(upstream, status, body, ForwardHeaders(allowed))
  }

  const ErrorOpen := "{\"error\":\""
  const ErrorClose := "\"}"

  /** `json({ error: message }, status)`: the serialised body and the JSON
      content type only. Neither message the handler sends needs escaping,
      so the body is the message between the two fixed ends. */
  function ErrorResponse(status: int, message: string): (r: Response)
    ensures r.Response? && r.status == status && r.headers == [("Content-Type", JsonType)]
    ensures ErrorMessage(r.body) == Some(message)
  {
    var body := ErrorOpen + message + ErrorClose;
    assert body[..|ErrorOpen|] == ErrorOpen;
    assert body[|body| - |ErrorClose|..] == ErrorClose;
    assert body[|ErrorOpen|..|body| - |ErrorClose|] == message;
    Response(status, body, [("Content-Type", JsonType)])
  }

  /** Reads the `error` member back from a body of the shape `json` writes
      for a message with nothing to escape. */
  function ErrorMessage(body: string): Option<string> {
    var n, m := |ErrorOpen|, |ErrorClose|;
    if |body| >= n + m && body[..n] == ErrorOpen && body[|body| - m..] == ErrorClose
    then Some(body[n..|body| - m])
    else None
  }

  /** The response the client receives. `new Response("Not Found", ...)`
      sets no header, so the constructor adds the string body's
      `Content-Type`; the error outcomes are `json` responses, and a
      forwarded answer keeps the upstream's status and body; an exception
      reaches the platform. */
  function ToResponse(o: Outcome): (r: Response)
    ensures o.NotFound? ==> r.Response? && r.status == 404 && r.body == "Not Found" && r.headers == [("Content-Type", TextType)]
    ensures o.Rejected? ==>
      r.Response? && r.status == o.status && ErrorMessage(r.body) == Some(o.error) && r.headers == [("Content-Type", JsonType)]
    ensures o.Forwarded? ==> r == Response(o.status, o.body, o.headers)
    ensures o.Threw? <==> r.Uncaught?
  {
    match o
    case NotFound => Response(404, "Not Found", [("Content-Type", TextType)])
    case Rejected(status, message) => ErrorResponse(status, message)
    case Forwarded(_, status, body, headers) => Response(status, body, headers)
    case Threw(_) => Uncaught
  }

  /** The handler end to end. */
  function Fetch(req: Request, env: Env, reply: UpstreamReply): (r: Response)
    ensures req.path != Route ==> r == Response(404, "Not Found", [("Content-Type", TextType)])
    ensures req.path == Route && !Truthy(env.apiKey) ==> r == ErrorResponse(500, MissingKey)
    ensures req.path == Route && Truthy(env.apiKey)
      && (!Truthy(Get(req.query, "lat")) || !Truthy(Get(req.query, "lon")))
      ==> r == ErrorResponse(400, MissingCoordinates)
    ensures req.path == Route && Truthy(env.apiKey)
      && Truthy(Get(req.query, "lat")) && Truthy(Get(req.query, "lon"))
      && reply.Answered? && AcceptsBody(reply.status)
      ==> r == Response(reply.status, reply.body,
                        ForwardHeaders(Cors.AllowedOrigin(req.origin, env.allowedOrigins)))
    ensures req.path == Route && Truthy(env.apiKey)
      && Truthy(Get(req.query, "lat")) && Truthy(Get(req.query, "lon"))
      && (reply.Failed? || !AcceptsBody(reply.status))
      ==> r == Uncaught
  {
    ToResponse(Handle(req, env, reply))
  }

  /** Given only `lat` and `lon`, the forwarded query uses the default
      units and language and carries the key as `appid`. */
  lemma DefaultsForwarded(req: Request, env: Env, reply: UpstreamReply, lat: string, lon: string)
    requires req.path == Route && Truthy(env.apiKey)
    requires Get(req.query, "lat") == Some(lat) && lat != ""
    requires Get(req.query, "lon") == Some(lon) && lon != ""
    requires Get(req.query, "units").None? && Get(req.query, "lang").None?
    ensures Handle(req, env, reply).Forwarded? || Handle(req, env, reply).Threw?
    ensures reply.Answered? && AcceptsBody(reply.status) ==> Handle(req, env, reply).Forwarded?
    ensures Handle(req, env, reply).upstream.query
      == [("lat", lat), ("lon", lon), ("units", "metric"), ("lang", "kr"), ("appid", env.apiKey.value)]
  {
  }

  /** Non-empty `units` and `lang` are forwarded verbatim, whatever they
      are. */
  lemma GivenValuesForwarded(req: Request, env: Env, reply: UpstreamReply,
                             lat: string, lon: string, units: string, lang: string)
    requires req.path == Route && Truthy(env.apiKey)
    requires Get(req.query, "lat") == Some(lat) && lat != ""
    requires Get(req.query, "lon") == Some(lon) && lon != ""
    requires Get(req.query, "units") == Some(units) && units != ""
    requires Get(req.query, "lang") == Some(lang) && lang != ""
    ensures Handle(req, env, reply).Forwarded? || Handle(req, env, reply).Threw?
    ensures reply.Answered? && AcceptsBody(reply.status) ==> Handle(req, env, reply).Forwarded?
    ensures Handle(req, env, reply).upstream.query
      == [("lat", lat), ("lon", lon), ("units", units), ("lang", lang), ("appid", env.apiKey.value)]
  {
  }

  /** The key never reaches the client inside a header value unless the
      client itself sent an `Origin` containing it, or it occurs in one of
      the fixed header values. */
  lemma KeyNotInHeaders(req: Request, env: Env, reply: UpstreamReply)
    requires Truthy(env.apiKey)
    requires req.origin.Some? ==> !Occurs(env.apiKey.value, req.origin.value)
    requires !Occurs(env.apiKey.value, JsonType) && !Occurs(env.apiKey.value, TextType)
    requires !Occurs(env.apiKey.value, "Origin")
    requires !Occurs(env.apiKey.value, Cors.Wildcard) && !Occurs(env.apiKey.value, Cors.Denied)
    ensures Fetch(req, env, reply).Response? ==>
      forall h :: h in Fetch(req, env, reply).headers ==> !Occurs(env.apiKey.value, h.1)
  {
    var key := env.apiKey.value;
    var allowed := Cors.AllowedOrigin(req.origin, env.allowedOrigins);
    assert !Occurs(key, allowed);
    var r := Fetch(req, env, reply);
    if r.Response? {
      var hs := r.headers;
      assert hs == [("Content-Type", TextType)] || hs == [("Content-Type", JsonType)] || hs == ForwardHeaders(allowed);
      HeaderValues(hs, allowed, key);
    }
  }

  lemma HeaderValues(hs: Pairs, allowed: string, key: string)
    requires hs == [("Content-Type", TextType)] || hs == [("Content-Type", JsonType)] || hs == ForwardHeaders(allowed)
    requires !Occurs(key, JsonType) && !Occurs(key, TextType) && !Occurs(key, "Origin") && !Occurs(key, allowed)
    ensures forall h :: h in hs ==> !Occurs(key, h.1)
  {
  }
}

=== FILE: wrappers.dfy ===
/** Optional values, standing in for JavaScript's `null` / `undefined`. */
module Wrappers {

  /** `None` is an absent value (a missing query parameter, header,
      environment variable or object property); `Some(v)` a present one. */
  datatype Option<+T> = None | Some(value: T)
}
